=== FILE: README.md ===
# Parameter binding editor of the behaviac designer

This project models `DesignerParameterComboEnumEditor`, the editor in the behaviac
designer that decides how a method parameter is bound. A parameter can hold one of:

- a constant (`const`);
- a behaviour-local variable (`par`);
- a property of the agent itself (`Self`);
- a property of a registered global instance.

The editor shows the binding kind in a combo box and hosts a sub-editor for the value.

The model covers five parts of that editor:

- **Binding catalog.** The constructor builds `_types`: `const`, `par`, `Self`, then the
  display name of every registered instance, in registry order (`binding.dfy`, and the
  class constructor in `editor.dfy`).
- **Classifier.** `SetParameter` classifies the current value (`classifier.dfy`):
  - A struct member is classified by the shape of its value.
  - A plain parameter is classified by the last space-separated token of its text.
  - The token is first matched against a registered instance prefix, and otherwise
    looked up in this order: the enclosing behaviour's pars, the agent type's
    properties, then the instance named by the property's class.
  - With the namespace fix switched on, a name also matches any declared name ending
    with it.
  - The classifier also models `getComboIndex`, which maps the kind to its catalog slot,
    and `getEditorType`, which picks the sub-editor.
- **Value reconciler.** When the binding kind switches, `setEditor` rewrites the
  parameter's value. For the property sub-editor it also chooses the instance scope
  (`GlobalType`) and the type filter (`FilterType`) (`reconciler.dfy`).
- **Visible combo items.** `SetParameter` narrows the item list to the current kind.
  `typeComboBox_DropDown` restores the other entries, putting the ones before the
  current kind in front and appending the rest (`combo_list.dfy`).
- **The editor object.** A class holds the catalog, the item list, the selected index,
  the parameter's value and the scope given to the property sub-editor. `SetParameter`, the selection handler,
  the drop-down handler, `createEditor` and `setEditor` are methods that update those
  fields. Each method is proved against the functions above (`editor.dfy`).

The registry (`Plugin`) is a read-only value with these parts:

- the ordered instance list, each instance carrying its name, display name and the
  property names of its agent type. `Plugin.InstanceNameIndex` and
  `Plugin.GetInstanceAgentType` are modelled as searches of this one list by name, first
  match first (an assumption, see "Left out");
- the foreign lookups `GetInstanceName`, `GetClassName`, `GetInstanceNameFromClassName`
  and `DefaultValue`, as functions.

The value's `ToString()` is a function given to the editor.
The compile-time switch `BEHAVIAC_NAMESPACE_FIX` is a boolean, so every result holds in
both builds.

Behaviour of the code worth noting:

- A struct member whose value is a `PropertyDef` classifies as `const`. It is not treated
  as a property.
- `getComboIndex` has no fall-back for a kind whose instance is not registered. It only
  asserts (`Debug.Check`) that the instance exists. The model states that as the
  precondition `ComboIndexDefined`. Under the assumption that the registry's two instance
  lookups search the same list, `Classifier.ClassifyTextIndexDefined` proves it always
  holds for plain parameters.
- After `SetParameter` has narrowed the list, a drop-down with empty text does not bring
  back catalog order. It yields the current kind first, then every other entry in
  catalog order (`ComboList.DroppedDownEmptyAfterNarrow`).
- When a struct member's `ParInfo` is switched to `Self` or to an instance, the type
  filter is the variable's value type. There is no fall-back to the declared type, so it
  is none for a null value.
- Switching back does not restore a plain parameter's binding. A plain parameter bound
  to a property loses it on the way through const: the reference is replaced by the
  default of the declared type, and switching to Self or an instance afterwards leaves
  that default alone (`Reconciler.ReconcilePlainLosesBinding`). In the concrete case of
  `Reconciler.PlainRoundTripBecomesConst`, the default's text then classifies as const. The kind round trip holds for
  struct members only (`Reconciler.ReconcileKindRoundTrip`).
- Every value that is not a `VariableDef`, `PropertyDef` or `ParInfo` is treated as a
  constant. No value type is rejected.
- `SetParameter` calls `createEditor` twice. The first call is for the classified kind.
  Selecting the narrowed item then raises `SelectedIndexChanged`, which calls it again
  for the selected catalog entry. When the kind is const and the parameter's attribute
  names no const editor, neither call creates a sub-editor and the value stays as it is.
  - For const, par and Self, that entry is the kind itself, and the second installation
    changes neither the value nor the instance scope
    (`ComboEnumEditor.SelectionSettles`).
  - For an instance kind the entry is the display name of the instance looked up. The
    second installation rebinds whenever that display name differs from the classified
    kind: the instance's name for a plain parameter, the variable's value class for a
    struct member (`ComboEnumEditor.SelectedKind`). A struct member is then rebound to the
    display name (`ComboEnumEditor.SelectedDisplayNameRebinds`).
- Opening the drop-down inserts entries in front of the shown items. The selected index
  moves with them, so the same item stays selected
  (`ComboList.DroppedDownKeepsSelection`).

The binding class names are assumed to be `"const"`, `"par"` and `"Self"`
(`VariableDef.kConst`, `kPar`, `kSelf`). `VariableDef` is not part of this model; its
`GetValueType()` is assumed to give the runtime type of the wrapped datum (see "Left out").

## Model

| member | source | states |
|---|---|---|
| ComboEnumEditor.ParameterComboEditor.constructor | tools/designer/BehaviacDesignerBase/Attributes/DesignerParameterComboEnumEditor.cs:28-39 | the catalog built by the loop is exactly `Catalog(plugin)`: const, par, Self, then each instance's display name in registry order |
| Binding.Catalog | tools/designer/BehaviacDesignerBase/Attributes/DesignerParameterComboEnumEditor.cs:32-38 | the catalog has 3 + n entries; slots 0, 1 and 2 are const, par and Self; slot 3 + i is the display name of instance i |
| Binding.CatalogDistinct | tools/designer/BehaviacDesignerBase/Attributes/DesignerParameterComboEnumEditor.cs:32-38 | the catalog has no duplicates if and only if the instance display names are pairwise different and none is a reserved class name |
| Binding.InstanceNameIndex | tools/designer/BehaviacDesignerBase/Attributes/DesignerParameterComboEnumEditor.cs:187 | the registry slot found holds the name and no earlier slot does; none is found exactly when no slot holds it |
| Binding.InstanceProperties | tools/designer/BehaviacDesignerBase/Attributes/DesignerParameterComboEnumEditor.cs:198-201 | an instance's agent type, and so its property list, exists exactly when some registry slot holds that name |
| Binding.IsReferenceObject | tools/designer/BehaviacDesignerBase/Attributes/DesignerParameterComboEnumEditor.cs:303 | `VariableDef`, `ParInfo` and `PropertyDef` values are references; null and literals never are |
| Binding.ValueType | tools/designer/BehaviacDesignerBase/Attributes/DesignerParameterComboEnumEditor.cs:315 | a variable's value type is null exactly when it wraps null; for a wrapped property it is the property's type |
| Classifier.Split | tools/designer/BehaviacDesignerBase/Attributes/DesignerParameterComboEnumEditor.cs:94 | splitting on spaces gives at least one piece and no piece contains a space; joining the pieces with spaces gives the text back |
| Classifier.LastToken | tools/designer/BehaviacDesignerBase/Attributes/DesignerParameterComboEnumEditor.cs:94-95 | the token looked up has no space and is no longer than the text |
| Classifier.LastTokenIsLastToken | tools/designer/BehaviacDesignerBase/Attributes/DesignerParameterComboEnumEditor.cs:94-95 | the token looked up is a space-free suffix of the text that starts the text or follows a space |
| Classifier.LastTokenIsLastPiece | tools/designer/BehaviacDesignerBase/Attributes/DesignerParameterComboEnumEditor.cs:94-95 | the token looked up is the last element of the split |
| Classifier.LastTokenAfterSpace | tools/designer/BehaviacDesignerBase/Attributes/DesignerParameterComboEnumEditor.cs:94-95 | text before the last space does not change the token looked up |
| Classifier.NameMatches | tools/designer/BehaviacDesignerBase/Attributes/DesignerParameterComboEnumEditor.cs:204-207 | without the namespace fix a name matches exactly when it is equal; a matching declared name is never shorter than the looked-up name, and an equal one always matches |
| Classifier.FindMatch | tools/designer/BehaviacDesignerBase/Attributes/DesignerParameterComboEnumEditor.cs:202-211 | the search returns the first declared name that equals the looked-up name (or, with the namespace fix, ends with it); it finds none exactly when no name matches |
| Classifier.InstanceValueType | tools/designer/BehaviacDesignerBase/Attributes/DesignerParameterComboEnumEditor.cs:193-216 | Self for the Self prefix; otherwise the instance name when that instance is registered and declares a matching property, and const in every other case |
| Classifier.LocalValueType | tools/designer/BehaviacDesignerBase/Attributes/DesignerParameterComboEnumEditor.cs:218-280 | par when a par of the behaviour matches; otherwise Self when a property of its agent type matches; otherwise the property's class when the instance of that class declares a match; otherwise const |
| Classifier.ComboInstance | tools/designer/BehaviacDesignerBase/Attributes/DesignerParameterComboEnumEditor.cs:183-184 | the instance looked up is the given instance name, or the class of the property when none is given |
| Classifier.ComboIndex | tools/designer/BehaviacDesignerBase/Attributes/DesignerParameterComboEnumEditor.cs:172-191 | the slot always indexes the catalog; a reserved kind's slot holds that kind; any other kind's slot is 3 plus the first registry slot holding the instance name (or the class of the property when no instance is given) |
| Classifier.ClassifyStruct | tools/designer/BehaviacDesignerBase/Attributes/DesignerParameterComboEnumEditor.cs:68-88 | a struct member's `ParInfo` is par, a `VariableDef` is its value class, anything else is const; no property name is looked up |
| Classifier.ClassifyText | tools/designer/BehaviacDesignerBase/Attributes/DesignerParameterComboEnumEditor.cs:94-108 | the instance is the registry's instance for the last token; without one the looked-up name is the whole token; with one it is the token minus the prefix and one separator; the name has no space |
| Classifier.ClassifyTextKindIsInstance | tools/designer/BehaviacDesignerBase/Attributes/DesignerParameterComboEnumEditor.cs:96-108 | a kind found from the text that is not reserved is the instance `getComboIndex` looks up |
| Classifier.ClassifyTextNameIsSuffix | tools/designer/BehaviacDesignerBase/Attributes/DesignerParameterComboEnumEditor.cs:94-100 | the looked-up property name is a suffix of the value text |
| Classifier.ClassifyTextLastTokenOnly | tools/designer/BehaviacDesignerBase/Attributes/DesignerParameterComboEnumEditor.cs:94-108 | the classification, and whether the substring step is defined, depend only on the text after the last space |
| Classifier.ClassifyTextIndexDefined | tools/designer/BehaviacDesignerBase/Attributes/DesignerParameterComboEnumEditor.cs:96-108 | for a plain parameter both `Debug.Check`s of `getComboIndex` hold: a kind that is not reserved is a registered instance |
| Classifier.Classify | tools/designer/BehaviacDesignerBase/Attributes/DesignerParameterComboEnumEditor.cs:68-108 | a classifiable value always gets a kind whose catalog slot is defined |
| Classifier.EditorTypeFor | tools/designer/BehaviacDesignerBase/Attributes/DesignerParameterComboEnumEditor.cs:282-294 | no sub-editor exactly for const without an attribute editor; the attribute editor exactly for const with one; the par editor exactly for par; the property editor exactly for every other kind |
| Reconciler.Reconcile | tools/designer/BehaviacDesignerBase/Attributes/DesignerParameterComboEnumEditor.cs:301-415 | switching to const leaves no `VariableDef` or `ParInfo`, and for a plain parameter no `PropertyDef` (a struct member's `PropertyDef` stays); values holding none of these are kept; a plain parameter keeps its value for other kinds; a struct member gets the requested kind unless it is a `ParInfo` already bound to that class; a literal's datum is kept; a scope is given exactly for Self and instance kinds, with no instance for Self |
| Reconciler.ReconcileToConst | tools/designer/BehaviacDesignerBase/Attributes/DesignerParameterComboEnumEditor.cs:301-325 | a reference becomes the default of the declared type (plain), of the variable's value type (struct `VariableDef`) or of the par variable's value type (struct `ParInfo`); everything else stays |
| Reconciler.ReconcileToPar | tools/designer/BehaviacDesignerBase/Attributes/DesignerParameterComboEnumEditor.cs:326-355 | a struct literal is wrapped into a `ParInfo` named and typed after the parameter; a `ParInfo` or par variable stays; another variable becomes a par variable holding a default; a plain parameter is untouched |
| Reconciler.ReconcileToProperty | tools/designer/BehaviacDesignerBase/Attributes/DesignerParameterComboEnumEditor.cs:356-415 | the value and type filter given for each shape when switching to Self or an instance, with the instance scope none for Self and the instance otherwise |
| Reconciler.ReconcileIdempotent | tools/designer/BehaviacDesignerBase/Attributes/DesignerParameterComboEnumEditor.cs:296-415 | switching to the same kind a second time leaves the value and instance scope as the first switch made them |
| Reconciler.ReconcileKeepsClassified | tools/designer/BehaviacDesignerBase/Attributes/DesignerParameterComboEnumEditor.cs:62-111 | running `setEditor` for the kind a value was classified as leaves the value unchanged, except that a const-classified value holding a reference (a struct member's `VariableDef` or `ParInfo`, a plain parameter's `VariableDef`, `ParInfo` or `PropertyDef`) is replaced by a default |
| Reconciler.ReconcileKindRoundTrip | tools/designer/BehaviacDesignerBase/Attributes/DesignerParameterComboEnumEditor.cs:296-415 | switching a struct member to any kind and back makes it classify as its original kind again (plain parameters excepted, see the next two rows) |
| Reconciler.ReconcilePlainLosesBinding | tools/designer/BehaviacDesignerBase/Attributes/DesignerParameterComboEnumEditor.cs:301-371 | a plain parameter holding a reference, switched to const and then to any kind, holds the default of its declared type, which is no reference and differs from the old value |
| Reconciler.PlainRoundTripBecomesConst | tools/designer/BehaviacDesignerBase/Attributes/DesignerParameterComboEnumEditor.cs:94-108 | concrete case: with a registry that knows neither "hp" nor "0" as instance prefix or class, and an `int` default of `0`, a plain parameter bound to the agent's property "hp" classifies as Self; after const and back to Self it holds `0`, whose text classifies as const |
| Reconciler.ScopeOnlyForPropertyEditor | tools/designer/BehaviacDesignerBase/Attributes/DesignerParameterComboEnumEditor.cs:362-375 | a scope is assigned exactly when the sub-editor is the property editor, so the casts to the property editor always succeed |
| ComboList.IndexOf | tools/designer/BehaviacDesignerBase/Attributes/DesignerParameterComboEnumEditor.cs:134-142 | the first position of the text in the catalog, and none exactly when the text is not in it |
| ComboList.AppendMissing | tools/designer/BehaviacDesignerBase/Attributes/DesignerParameterComboEnumEditor.cs:126-130 | appending the missing entries of a walk never shortens the list and adds at most one item per entry walked |
| ComboList.PrependMissing | tools/designer/BehaviacDesignerBase/Attributes/DesignerParameterComboEnumEditor.cs:146-150 | inserting the missing entries of a backward walk never shortens the list and adds at most one item per entry walked |
| ComboList.AppendMissingKeeps | tools/designer/BehaviacDesignerBase/Attributes/DesignerParameterComboEnumEditor.cs:126-130 | appending keeps the old items as a prefix and adds only catalog entries that were missing |
| ComboList.AppendMissingCovers | tools/designer/BehaviacDesignerBase/Attributes/DesignerParameterComboEnumEditor.cs:126-130 | after appending, every old item and every walked entry is shown, and a duplicate-free list stays duplicate-free |
| ComboList.PrependMissingSuffix | tools/designer/BehaviacDesignerBase/Attributes/DesignerParameterComboEnumEditor.cs:146-150 | inserting at the head keeps the old items as a suffix |
| ComboList.PrependMissingAdds | tools/designer/BehaviacDesignerBase/Attributes/DesignerParameterComboEnumEditor.cs:146-150 | inserting at the head adds only entries that were missing |
| ComboList.PrependMissingCovers | tools/designer/BehaviacDesignerBase/Attributes/DesignerParameterComboEnumEditor.cs:146-150 | after inserting, every old item and every walked entry is shown, and a duplicate-free list stays duplicate-free |
| ComboList.DroppedDown | tools/designer/BehaviacDesignerBase/Attributes/DesignerParameterComboEnumEditor.cs:122-159 | a drop-down never shortens the list and adds at most one item per catalog entry; text that is not a catalog entry leaves it unchanged |
| ComboList.SelectedAfter | tools/designer/BehaviacDesignerBase/Attributes/DesignerParameterComboEnumEditor.cs:146-150 | the selected index after a drop-down: no selection stays no selection, and a selection never moves towards the head |
| ComboList.DroppedDownKeepsSelection | tools/designer/BehaviacDesignerBase/Attributes/DesignerParameterComboEnumEditor.cs:122-159 | the index after a drop-down is in range and holds the item that was selected before |
| ComboList.DroppedDownShape | tools/designer/BehaviacDesignerBase/Attributes/DesignerParameterComboEnumEditor.cs:122-159 | a drop-down keeps the old items as one contiguous block in their order, adds only catalog entries, keeps a duplicate-free list duplicate-free, and with empty text shows every catalog entry |
| ComboList.DroppedDownUnknownText | tools/designer/BehaviacDesignerBase/Attributes/DesignerParameterComboEnumEditor.cs:132-158 | text that is not a catalog entry leaves the items unchanged |
| ComboList.DroppedDownRestoresCatalog | tools/designer/BehaviacDesignerBase/Attributes/DesignerParameterComboEnumEditor.cs:132-158 | in a duplicate-free catalog, the list narrowed to one entry whose text is that entry drops down to the whole catalog in catalog order |
| ComboList.DroppedDownEmptyAfterNarrow | tools/designer/BehaviacDesignerBase/Attributes/DesignerParameterComboEnumEditor.cs:124-131 | with empty text, the narrowed list drops down to the current entry followed by every other catalog entry in catalog order |
| ComboEnumEditor.Installed | tools/designer/BehaviacDesignerBase/Attributes/DesignerParameterComboEnumEditor.cs:433-443 | no sub-editor leaves the state as it is; switching to const with an attribute editor leaves no `VariableDef` or `ParInfo`, and for a plain parameter no `PropertyDef`; a plain parameter's value survives every other kind; const and par keep the scope; Self and instance kinds get no instance or that instance as `GlobalType` |
| ComboEnumEditor.InstalledIdempotent | tools/designer/BehaviacDesignerBase/Attributes/DesignerParameterComboEnumEditor.cs:296-447 | installing the sub-editor for the same kind twice leaves the value and instance scope as the first installation did |
| ComboEnumEditor.SelectedKind | tools/designer/BehaviacDesignerBase/Attributes/DesignerParameterComboEnumEditor.cs:113-119 | the item `SetParameter` selects is the classified kind for const, par and Self; for a plain parameter's instance kind it is the kind exactly when the instance's display name equals its name; for a struct variable's instance kind it is the kind exactly when the display name equals the variable's value class |
| ComboEnumEditor.SelectionSettles | tools/designer/BehaviacDesignerBase/Attributes/DesignerParameterComboEnumEditor.cs:113-119 | when the selected item is the classified kind, the installation raised by the selection changes neither the value nor the instance scope |
| ComboEnumEditor.SelectedDisplayNameRebinds | tools/designer/BehaviacDesignerBase/Attributes/DesignerParameterComboEnumEditor.cs:113-119 | concrete case: instance "A" shown as "B" and a struct variable of class "A"; the first installation keeps the value, the one raised by the selection rebinds it to class "B" with scope "B" |
| ComboEnumEditor.NarrowedDropDown | tools/designer/BehaviacDesignerBase/Attributes/DesignerParameterComboEnumEditor.cs:113-159 | with pairwise different non-reserved display names, the list `SetParameter` leaves drops down to the whole catalog, or with empty text to the current kind first and then the rest |
| ComboEnumEditor.ParameterComboEditor.SetEditor | tools/designer/BehaviacDesignerBase/Attributes/DesignerParameterComboEnumEditor.cs:296-415 | the new value is the reconciled value, and the property editor's `GlobalType` and `FilterType` are the reconciled scope when there is one and unchanged otherwise |
| ComboEnumEditor.ParameterComboEditor.CreateEditor | tools/designer/BehaviacDesignerBase/Attributes/DesignerParameterComboEnumEditor.cs:428-447 | the sub-editor type is `getEditorType`'s; without one the value and scope are unchanged; with a parameter the new state is `Installed` for the kind |
| ComboEnumEditor.ParameterComboEditor.FindKind | tools/designer/BehaviacDesignerBase/Attributes/DesignerParameterComboEnumEditor.cs:66-108 | the kind computed is the classification of the value, and its slot is that kind's catalog index |
| ComboEnumEditor.ParameterComboEditor.ApplyKind | tools/designer/BehaviacDesignerBase/Attributes/DesignerParameterComboEnumEditor.cs:90-119 | the sub-editor for the kind is installed; with a slot the items become its catalog entry, selected, and the sub-editor for that entry is installed again; without one the items, selection and first installed state stay |
| ComboEnumEditor.ParameterComboEditor.SetParameter | tools/designer/BehaviacDesignerBase/Attributes/DesignerParameterComboEnumEditor.cs:62-120 | the items become exactly the catalog entry of the value's kind, selected; the value and scope are those of installing the sub-editor for the classified kind and then for the selected entry; the catalog is unchanged |
| ComboEnumEditor.ParameterComboEditor.SelectedIndexChanged | tools/designer/BehaviacDesignerBase/Attributes/DesignerParameterComboEnumEditor.cs:449-457 | with an item selected and a parameter, the state becomes `Installed` for the selected kind; with no selection or no parameter nothing changes |
| ComboEnumEditor.ParameterComboEditor.AppendMissingFrom | tools/designer/BehaviacDesignerBase/Attributes/DesignerParameterComboEnumEditor.cs:152-156 | the loop appends exactly what `AppendMissing` over the rest of the catalog appends |
| ComboEnumEditor.ParameterComboEditor.PrependMissingBefore | tools/designer/BehaviacDesignerBase/Attributes/DesignerParameterComboEnumEditor.cs:146-150 | the backward loop inserts exactly what `PrependMissing` over the catalog prefix inserts, and a selected index shifts by the number of items inserted |
| ComboEnumEditor.ParameterComboEditor.FindType | tools/designer/BehaviacDesignerBase/Attributes/DesignerParameterComboEnumEditor.cs:134-142 | the index is the first catalog position holding the text, or -1 when there is none |
| ComboEnumEditor.ParameterComboEditor.DropDown | tools/designer/BehaviacDesignerBase/Attributes/DesignerParameterComboEnumEditor.cs:122-159 | the new items are `DroppedDown` of the old items, the catalog and the text, and the selected index is `SelectedAfter`, so the same item stays selected; every `ComboList` lemma above applies to the handler |

## Left out

- Window layout, events and overrides that change no modelled state: `InitializeComponent`,
  `ReadOnly`, `DisplayName`, `Description`, `setPropertyEditor`, and the resize and
  mouse handlers. `typeComboBox_SelectedIndexChanged` is modelled, apart from its
  `OnValueChanged` notification.
- The subscription of `typeComboBox_SelectedIndexChanged` to the combo's selection event
  is made in the form designer file, which is not part of this model. The model assumes
  the handler is subscribed, as its name says.
- ComboEnumEditor.ParameterComboEditor.SetParameter: the selection change raised by
  `Items.Clear()` is not modelled. It leaves no item selected, so the handler does
  nothing.
- Events after `setEditor`'s rewrite: `editor.SetParameter`, `ValueWasAssigned` and the
  `ValueWasChanged` subscription. They belong to the sub-editors, which are not part of
  this model.
- In `createEditor`, the removal of the old control, the sizing of the new one and its
  creation by reflection. The model keeps only the choice of editor type and the
  `setEditor` call.
- `Plugin`, `AgentType`, `VariableDef`, `ParInfo` and `Node`. These are not part of this
  model.
  - `GetInstanceName`, `GetClassName`, `GetInstanceNameFromClassName`, `DefaultValue` and
    the value's `ToString()` are function parameters of the editor.
  - `Plugin.InstanceNameIndex` and `Plugin.GetInstanceAgentType` are assumed to search
    the same ordered instance list by name and return the first match.
    `Binding.InstanceNameIndex` and `Binding.InstanceProperties` model them that way, and
    `Classifier.ClassifyTextIndexDefined` holds only under that assumption.
  - `VariableDef.GetValueType()` is assumed to give the wrapped datum's runtime type: null
    for a null datum and the property's type for a `PropertyDef` (`Binding.ValueType`).
  - The behaviour's pars (`GetAllPars`) and its agent type's properties are given
    directly as name lists.
- Aliasing of `_param`. The editor holds the parameter's fixed part and its value as its
  own fields, so a change made through another reference to the same parameter object
  is not modelled.
- The registry is fixed for the editor's lifetime. The catalog is built once, as in the
  constructor, and a registry changed afterwards is not tracked.
- ComboEnumEditor.ParameterComboEditor.constructor: the item list starts empty. Items the
  designer form may have put in the combo box are not modelled.
- ComboEnumEditor.ParameterComboEditor.CreateEditor: the precondition excludes installing
  a non-const kind while no parameter is set. `setEditor` dereferences `_param` there
  (lines 328 and 358 of `DesignerParameterComboEnumEditor.cs`) and would throw a
  `NullReferenceException`; the exception is not modelled.
- ComboEnumEditor.ParameterComboEditor.SelectedIndexChanged: the same precondition, for
  the selected item, excludes that exception.
- ComboEnumEditor.ParameterComboEditor.DropDown: the selection events that
  `Items.Insert(0, …)` may raise while the selected index shifts are not modelled.
- ComboEnumEditor.ParameterComboEditor.DropDown: the combo's text is a parameter. The
  link between that text and the selected item is left to the caller.
- Classifier.NameMatches: ordinal comparison is modelled as equality of character
  sequences. Culture-sensitive `EndsWith` is not modelled.
- A null value's `ToString()` on a plain parameter would throw. `Classifier.Classifiable`
  excludes it rather than modelling the exception.
- A prefix longer than the token would make `Substring` throw. `Classifier.Classifiable`
  excludes it through `SubstringDefined` rather than modelling the exception.

=== FILE: binding.dfy ===
/**
  Values a designer parameter can hold, the parameter itself, and the
  read-only registry (the designer's `Plugin`) that the binding editor
  consults. The registry's own lookups are foreign code: the ones this
  editor relies on are carried as functions of a `Plugin` value.
 */
module Binding {

  datatype Option<+T> = None | Some(value: T) {
    /** The wrapped value, or `default` when there is none. */
    function GetOr(default: T): T {
      match this
      case Some(v) => v
      case None => default
    }
  }

  /** The binding-class names of `VariableDef` (kConst, kPar, kSelf). */
  const kConst: string := "const"
  const kPar: string := "par"
  const kSelf: string := "Self"

  predicate IsReservedClass(s: string) {
    s == kConst || s == kPar || s == kSelf
  }

  /** The three reserved class names are pairwise different. */
  lemma ReservedClassesDiffer()
    ensures kConst != kPar && kConst != kSelf && kPar != kSelf
  {
    assert |kConst| == 5 && |kPar| == 3 && |kSelf| == 4;
  }

  /** A .NET `Type` token, known only by its full name. */
  datatype TypeRef = TypeRef(fullName: string)

  /** A plain object: null, or a literal of some runtime type. */
  datatype Constant = Null | Literal(text: string, ty: TypeRef)

  /** A `PropertyDef`: a named agent property of some type. */
  datatype PropertyDef = PropertyDef(name: string, ty: TypeRef)

  /** What a `VariableDef` can wrap: a plain object or a property. */
  datatype Datum = Const(constant: Constant) | Property(property: PropertyDef)

  /** A `VariableDef`: a wrapped datum tagged with its binding class. */
  datatype VariableDef = VariableDef(datum: Datum, valueClass: string)

  /** A `ParInfo`: a behaviour-local variable with its name and type name. */
  datatype ParInfo = ParInfo(name: string, typeName: string, variable: VariableDef)

  /** The runtime shape of a parameter's `Value`. */
  datatype Value = Plain(datum: Datum) | Var(def: VariableDef) | Par(info: ParInfo)

  /**
    `VariableDef.GetValueType()`: the runtime type of the wrapped datum, or
    none (a null `Type`) when it wraps null.
   */
  function ValueType(d: VariableDef): (t: Option<TypeRef>)
    ensures t.None? <==> d.datum == Const(Null)
    ensures d.datum.Property? ==> t == Some(d.datum.property.ty)
  {
    match d.datum
    case Const(Null) => None
    case Const(Literal(_, ty)) => Some(ty)
    case Property(p) => Some(p.ty)
  }

  /**
    True of the shapes `VariableDef`, `PropertyDef` and `ParInfo`: never of
    null or of a literal.
   */
  predicate IsReferenceObject(v: Value)
    ensures v.Plain? && v.datum.Const? ==> !IsReferenceObject(v)
    ensures !v.Plain? ==> IsReferenceObject(v)
    ensures v.Plain? && v.datum.Property? ==> IsReferenceObject(v)
  {
    v.Var? || v.Par? || (v.Plain? && v.datum.Property?)
  }

  /**
    The fixed part of a `MethodDef.Param`: whether it is a struct member,
    its declared type, its attribute's display name, and whether its
    attribute names an editor type for constants.
   */
  datatype Param = Param(isFromStruct: bool, ty: TypeRef, displayName: string, hasConstEditor: bool)

  /**
    An `InstanceName_t` of the registry, with the property names of the
    agent type registered for it.
   */
  datatype InstanceName = InstanceName(name: string, displayName: string, properties: seq<string>)

  /**
    The registry as this editor sees it: the ordered instance list and the
    foreign lookups `GetInstanceName`, `GetClassName`,
    `GetInstanceNameFromClassName` and `DefaultValue` (the empty string
    standing for a null or empty name, `None` for a null `Type`).
   */
  datatype Plugin = Plugin(
    instanceNames: seq<InstanceName>,
    getInstanceName: string -> string,
    getClassName: string -> string,
    getInstanceNameFromClassName: string -> string,
    defaultValue: Option<TypeRef> -> Constant)

  /**
    The behaviour enclosing the edited node: the names of all its pars and,
    when its agent type is set, that agent type's property names.
   */
  datatype Behavior = Behavior(pars: seq<string>, agentProperties: Option<seq<string>>)

  /** `Plugin.InstanceNameIndex`: the first registry slot holding `name`. */
  function InstanceNameIndex(instances: seq<InstanceName>, name: string): (r: Option<nat>)
    ensures r.Some? ==> r.value < |instances| && instances[r.value].name == name
    ensures r.Some? ==> forall j :: 0 <= j < r.value ==> instances[j].name != name
    ensures r.None? ==> forall j :: 0 <= j < |instances| ==> instances[j].name != name
  {
    if instances == [] then None
    else if instances[0].name == name then Some(0)
    else match InstanceNameIndex(instances[1..], name)
      case None => None
      case Some(i) => Some(i + 1)
  }

  /**
    `Plugin.GetInstanceAgentType(name).GetProperties()`: the properties of
    the instance registered under `name`, or none when there is no such
    instance.
   */
  function InstanceProperties(plugin: Plugin, name: string): (r: Option<seq<string>>)
    ensures r.Some? <==> exists i :: 0 <= i < |plugin.instanceNames| && plugin.instanceNames[i].name == name
  {
    match InstanceNameIndex(plugin.instanceNames, name)
    case Some(i) => Some(plugin.instanceNames[i].properties)
    case None => None
  }

  /** The display names of the registered instances, in registry order. */
  function DisplayNames(instances: seq<InstanceName>): (r: seq<string>)
    ensures |r| == |instances|
    ensures forall i :: 0 <= i < |instances| ==> r[i] == instances[i].displayName
  {
    if instances == [] then [] else [instances[0].displayName] + DisplayNames(instances[1..])
  }

  /**
    The binding catalog `_types`: const, par and Self, then one entry per
    registered instance, in registry order.
   */
  function Catalog(plugin: Plugin): (r: seq<string>)
    ensures |r| == 3 + |plugin.instanceNames|
    ensures r[0] == kConst && r[1] == kPar && r[2] == kSelf
    ensures forall i :: 0 <= i < |plugin.instanceNames| ==> r[3 + i] == plugin.instanceNames[i].displayName
  {
    [kConst, kPar, kSelf] + DisplayNames(plugin.instanceNames)
  }

  predicate Distinct(s: seq<string>) {
    forall i, j :: 0 <= i < j < |s| ==> s[i] != s[j]
  }

  /**
    The catalog lists each kind once exactly when the instance display
    names are pairwise different and none of them is a reserved class name.
   */
  lemma CatalogDistinct(plugin: Plugin)
    ensures Distinct(Catalog(plugin)) <==>
      (Distinct(DisplayNames(plugin.instanceNames)) &&
       forall i :: 0 <= i < |plugin.instanceNames| ==> !IsReservedClass(plugin.instanceNames[i].displayName))
  {
    var c := Catalog(plugin);
    var d := DisplayNames(plugin.instanceNames);
    assert c[3..] == d;
    if Distinct(c) {
      forall i, j | 0 <= i < j < |d| ensures d[i] != d[j] {
        assert d[i] == c[3 + i] && d[j] == c[3 + j];
      }
      forall i | 0 <= i < |plugin.instanceNames|
        ensures !IsReservedClass(plugin.instanceNames[i].displayName)
      {
        assert c[3 + i] != c[0] && c[3 + i] != c[1] && c[3 + i] != c[2];
      }
    }
  }
}

=== FILE: classifier.dfy ===
/**
  The binding classifier of the parameter editor: which binding kind a
  parameter's value stands for (`SetParameter`, both `getValueType`
  overloads), which catalog slot shows that kind (`getComboIndex`), and
  which sub-editor edits it (`getEditorType`).

  A kind is a string, as in the editor: `kConst`, `kPar`, `kSelf`, or the
  name of a registered instance (or class).
 */
module Classifier {
  import opened Binding

  // ---------------------------------------------------------------------
  // Decoding the value text: `Value.ToString().Split(' ')`
  // ---------------------------------------------------------------------

  /** Joins tokens with single spaces between them. */
  function Join(tokens: seq<string>): string
    requires |tokens| >= 1
  {
    if |tokens| == 1 then tokens[0]
    else Join(tokens[..|tokens| - 1]) + [' '] + tokens[|tokens| - 1]
  }

  /**
    `string.Split(' ')`: the pieces between spaces, empty pieces included,
    so that joining them back with spaces gives the string again.
   */
  function Split(s: string): (tokens: seq<string>)
    ensures |tokens| >= 1
    ensures forall i :: 0 <= i < |tokens| ==> ' ' !in tokens[i]
    ensures Join(tokens) == s
    decreases |s|
  {
    if s == [] then [[]]
    else
      var init := Split(s[..|s| - 1]);
      var c := s[|s| - 1];
      assert s == s[..|s| - 1] + [c];
      if c == ' ' then
        assert (init + [[]])[..|init|] == init;
        init + [[]]
      else
        var r := init[..|init| - 1] + [init[|init| - 1] + [c]];
        assert |r| > 1 ==> r[..|r| - 1] == init[..|init| - 1];
        assert |init| > 1 ==> Join(init) == Join(init[..|init| - 1]) + [' '] + init[|init| - 1];
        r
  }

  /**
    The last space-separated piece of the text: the characters after its
    last space, or all of it when it has none.
   */
  function LastToken(s: string): (t: string)
    ensures ' ' !in t && |t| <= |s|
    decreases |s|
  {
    if s == [] || s[|s| - 1] == ' ' then []
    else LastToken(s[..|s| - 1]) + [s[|s| - 1]]
  }

  /** A space-free suffix preceded by a space or the start: the last token. */
  predicate IsLastToken(s: string, t: string) {
    && ' ' !in t
    && |t| <= |s| && s[|s| - |t|..] == t
    && (|t| < |s| ==> s[|s| - |t| - 1] == ' ')
  }

  lemma LastTokenUnique(s: string, t1: string, t2: string)
    requires IsLastToken(s, t1) && IsLastToken(s, t2)
    ensures t1 == t2
  {
  }

  /** `LastToken` is the space-free suffix that starts the string or follows a space. */
  lemma {:induction false} LastTokenIsLastToken(s: string)
    ensures IsLastToken(s, LastToken(s))
    decreases |s|
  {
    if s != [] && s[|s| - 1] != ' ' {
      var init := s[..|s| - 1];
      var t0 := LastToken(init);
      LastTokenIsLastToken(init);
      assert s[|s| - |t0| - 1..] == init[|init| - |t0|..] + [s[|s| - 1]];
      if |t0| < |init| {
        assert s[|s| - |t0| - 2] == init[|init| - |t0| - 1];
      }
    }
  }

  /** `Value.ToString().Split(' ')`, last element: exactly `LastToken`. */
  lemma LastTokenIsLastPiece(s: string)
    ensures var tokens := Split(s); LastToken(s) == tokens[|tokens| - 1]
  {
    var tokens := Split(s);
    var t := tokens[|tokens| - 1];
    if |tokens| > 1 {
      assert s == (Join(tokens[..|tokens| - 1]) + [' ']) + t;
    }
    assert IsLastToken(s, t);
    LastTokenIsLastToken(s);
    LastTokenUnique(s, t, LastToken(s));
  }

  /**
    Only the last space-separated token counts: whatever precedes the last
    space does not change it.
   */
  lemma {:induction false} LastTokenAfterSpace(a: string, b: string)
    ensures LastToken(a + [' '] + b) == LastToken(b)
    decreases |b|
  {
    var s := a + [' '] + b;
    if b == [] {
      assert s[|s| - 1] == ' ';
    } else {
      assert s[|s| - 1] == b[|b| - 1];
      if b[|b| - 1] != ' ' {
        assert s[..|s| - 1] == a + [' '] + b[..|b| - 1];
        LastTokenAfterSpace(a, b[..|b| - 1]);
      }
    }
  }

  // ---------------------------------------------------------------------
  // Property-name lookup
  // ---------------------------------------------------------------------

  predicate EndsWith(s: string, suffix: string) {
    |suffix| <= |s| && s[|s| - |suffix|..] == suffix
  }

  lemma EndsWithTransitive(s: string, t: string, u: string)
    requires EndsWith(s, t) && EndsWith(t, u)
    ensures EndsWith(s, u)
  {
    assert s[|s| - |u|..] == s[|s| - |t|..][|t| - |u|..];
  }

  /**
    A declared name matches the looked-up name when they are equal or,
    in a build with `BEHAVIAC_NAMESPACE_FIX`, when it ends with it.
   */
  predicate NameMatches(name: string, propertyName: string, namespaceFix: bool)
    ensures !namespaceFix ==> (NameMatches(name, propertyName, namespaceFix) <==> name == propertyName)
    ensures NameMatches(name, propertyName, namespaceFix) ==> |propertyName| <= |name|
    ensures name == propertyName ==> NameMatches(name, propertyName, namespaceFix)
  {
    name == propertyName || (namespaceFix && EndsWith(name, propertyName))
  }

  predicate HasMatch(names: seq<string>, propertyName: string, namespaceFix: bool) {
    exists i :: 0 <= i < |names| && NameMatches(names[i], propertyName, namespaceFix)
  }

  /** The `foreach` search with early return: the first matching name. */
  function FindMatch(names: seq<string>, propertyName: string, namespaceFix: bool): (r: Option<nat>)
    ensures r.Some? ==> r.value < |names| && NameMatches(names[r.value], propertyName, namespaceFix)
    ensures r.Some? ==> forall j :: 0 <= j < r.value ==> !NameMatches(names[j], propertyName, namespaceFix)
    ensures r.None? <==> !HasMatch(names, propertyName, namespaceFix)
  {
    if names == [] then None
    else if NameMatches(names[0], propertyName, namespaceFix) then Some(0)
    else match FindMatch(names[1..], propertyName, namespaceFix)
      case None =>
        assert forall i :: 1 <= i < |names| ==> names[i] == names[1..][i - 1];
        None
      case Some(i) => Some(i + 1)
  }

  /** The instance registered under `name` declares a matching property. */
  predicate InstanceHasProperty(plugin: Plugin, name: string, propertyName: string, namespaceFix: bool) {
    var props := InstanceProperties(plugin, name);
    props.Some? && HasMatch(props.value, propertyName, namespaceFix)
  }

  /**
    `getValueType(instanceName, propertyName)`: Self for the Self prefix;
    otherwise the instance name when that instance declares a matching
    property, and const when it does not or is not registered.
   */
  function InstanceValueType(plugin: Plugin, namespaceFix: bool, instanceName: string, propertyName: string): (r: string)
    ensures instanceName == kSelf ==> r == kSelf
    ensures instanceName != kSelf && InstanceHasProperty(plugin, instanceName, propertyName, namespaceFix) ==> r == instanceName
    ensures instanceName != kSelf && !InstanceHasProperty(plugin, instanceName, propertyName, namespaceFix) ==> r == kConst
  {
    if instanceName == kSelf then kSelf
    else match InstanceProperties(plugin, instanceName)
      case Some(props) =>
        if FindMatch(props, propertyName, namespaceFix).Some? then instanceName else kConst
      case None => kConst
  }

  /** A par of the enclosing behaviour matches. */
  predicate ParStep(namespaceFix: bool, behavior: Option<Behavior>, propertyName: string) {
    behavior.Some? && HasMatch(behavior.value.pars, propertyName, namespaceFix)
  }

  /** A property of the enclosing behaviour's agent type matches. */
  predicate SelfStep(namespaceFix: bool, behavior: Option<Behavior>, propertyName: string) {
    && behavior.Some? && behavior.value.agentProperties.Some?
    && HasMatch(behavior.value.agentProperties.value, propertyName, namespaceFix)
  }

  /** A property of the instance named after the property's class matches. */
  predicate WorldStep(plugin: Plugin, namespaceFix: bool, propertyName: string) {
    var className := plugin.getClassName(propertyName);
    className != "" && InstanceHasProperty(plugin, className, propertyName, namespaceFix)
  }

  /**
    `getValueType(propertyName)`: a matching par wins over a matching Self
    property, which wins over a matching property of the instance named by
    the property's class; otherwise const. Without an enclosing behaviour
    the first two steps are skipped.
   */
  function LocalValueType(plugin: Plugin, namespaceFix: bool, behavior: Option<Behavior>, propertyName: string): (r: string)
    ensures ParStep(namespaceFix, behavior, propertyName) ==> r == kPar
    ensures !ParStep(namespaceFix, behavior, propertyName) && SelfStep(namespaceFix, behavior, propertyName) ==> r == kSelf
    ensures (!ParStep(namespaceFix, behavior, propertyName) && !SelfStep(namespaceFix, behavior, propertyName) &&
             WorldStep(plugin, namespaceFix, propertyName)) ==> r == plugin.getClassName(propertyName)
    ensures (!ParStep(namespaceFix, behavior, propertyName) && !SelfStep(namespaceFix, behavior, propertyName) &&
             !WorldStep(plugin, namespaceFix, propertyName)) ==> r == kConst
  {
    if behavior.Some? && FindMatch(behavior.value.pars, propertyName, namespaceFix).Some? then kPar
    else if behavior.Some? && behavior.value.agentProperties.Some? &&
            FindMatch(behavior.value.agentProperties.value, propertyName, namespaceFix).Some? then kSelf
    else
      var className := plugin.getClassName(propertyName);
      if className == "" then kConst
      else match InstanceProperties(plugin, className)
        case Some(props) =>
          if FindMatch(props, propertyName, namespaceFix).Some? then className else kConst
        case None => kConst
  }

  // ---------------------------------------------------------------------
  // Catalog slot: `getComboIndex`
  // ---------------------------------------------------------------------

  /**
    The instance a non-reserved kind is looked up under: the given instance
    name, or the class of the property when none is given.
   */
  function ComboInstance(plugin: Plugin, instanceName: string, propertyName: string): (r: string)
    ensures instanceName != "" ==> r == instanceName
    ensures instanceName == "" ==> r == plugin.getClassName(propertyName)
  {
    if instanceName == "" then plugin.getClassName(propertyName) else instanceName
  }

  /** The two `Debug.Check`s of `getComboIndex`. */
  predicate ComboIndexDefined(plugin: Plugin, valueType: string, instanceName: string, propertyName: string) {
    || IsReservedClass(valueType)
    || (var name := ComboInstance(plugin, instanceName, propertyName);
        name != "" && InstanceNameIndex(plugin.instanceNames, name).Some?)
  }

  /**
    `getComboIndex`: const, par and Self map to their own catalog slots;
    any other kind to the slot of the first instance registered under the
    given instance name (or, when none is given, under the class derived
    from the property name). The slot always indexes the catalog.
   */
  function ComboIndex(plugin: Plugin, valueType: string, instanceName: string, propertyName: string): (r: nat)
    requires ComboIndexDefined(plugin, valueType, instanceName, propertyName)
    ensures r < |Catalog(plugin)|
    ensures IsReservedClass(valueType) ==> Catalog(plugin)[r] == valueType
    ensures !IsReservedClass(valueType) ==>
      var name := ComboInstance(plugin, instanceName, propertyName);
      && 3 <= r
      && plugin.instanceNames[r - 3].name == name
      && Catalog(plugin)[r] == plugin.instanceNames[r - 3].displayName
      && forall j :: 0 <= j < r - 3 ==> plugin.instanceNames[j].name != name
  {
    ReservedClassesDiffer();
    if valueType == kConst then 0
    else if valueType == kPar then 1
    else if valueType == kSelf then 2
    else
      assert !IsReservedClass(valueType);
      var i := InstanceNameIndex(plugin.instanceNames, ComboInstance(plugin, instanceName, propertyName)).value;
      assert Catalog(plugin)[3 + i] == plugin.instanceNames[i].displayName;
      i + 3
  }

  // ---------------------------------------------------------------------
  // Classification: the first half of `SetParameter`
  // ---------------------------------------------------------------------

  /** The kind found, the instance prefix (or ""), and the looked-up name. */
  datatype Classification = Classification(valueType: string, instance: string, propertyName: string)

  /**
    A struct member is classified by the shape of its value: a `ParInfo` as
    par, a `VariableDef` as its value class (Self keeps Self as instance,
    any other class is mapped to its instance name), anything else as const.
   */
  function ClassifyStruct(plugin: Plugin, v: Value): (c: Classification)
    ensures v.Par? ==> c.valueType == kPar
    ensures v.Var? ==> c.valueType == v.def.valueClass
    ensures v.Plain? ==> c.valueType == kConst
    ensures c.propertyName == ""
  {
    match v
    case Par(_) => Classification(kPar, "", "")
    case Var(d) =>
      var instance := if d.valueClass == kSelf then kSelf else plugin.getInstanceNameFromClassName(d.valueClass);
      Classification(d.valueClass, instance, "")
    case Plain(_) => Classification(kConst, "", "")
  }

  /** What `Substring` demands of the instance prefix found in the token. */
  predicate SubstringDefined(plugin: Plugin, text: string) {
    var token := LastToken(text);
    var instance := plugin.getInstanceName(token);
    instance == "" || |instance| < |token|
  }

  /**
    A plain parameter is classified by the last token of its value text:
    with a registered instance prefix, by that instance's properties under
    the token minus the prefix and one separator; without one, by the
    par / Self / class lookup under the whole token.
   */
  function ClassifyText(plugin: Plugin, namespaceFix: bool, behavior: Option<Behavior>, text: string): (c: Classification)
    requires SubstringDefined(plugin, text)
    ensures c.instance == plugin.getInstanceName(LastToken(text))
    ensures c.instance == "" ==> c.propertyName == LastToken(text)
    ensures c.instance != "" ==> |c.instance| + 1 + |c.propertyName| == |LastToken(text)|
    ensures ' ' !in c.propertyName
  {
    var token := LastToken(text);
    var instance := plugin.getInstanceName(token);
    if instance != "" then
      var propertyName := token[|instance| + 1..];
      Classification(InstanceValueType(plugin, namespaceFix, instance, propertyName), instance, propertyName)
    else
      Classification(LocalValueType(plugin, namespaceFix, behavior, token), "", token)
  }

  /** The looked-up property name is a suffix of the value text. */
  lemma ClassifyTextNameIsSuffix(plugin: Plugin, namespaceFix: bool, behavior: Option<Behavior>, text: string)
    requires SubstringDefined(plugin, text)
    ensures EndsWith(text, ClassifyText(plugin, namespaceFix, behavior, text).propertyName)
  {
    var c := ClassifyText(plugin, namespaceFix, behavior, text);
    var token := LastToken(text);
    LastTokenIsLastToken(text);
    assert EndsWith(text, token);
    if c.instance != "" {
      assert EndsWith(token, c.propertyName);
      EndsWithTransitive(text, token, c.propertyName);
    }
  }

  /**
    A kind found from the text that is not reserved is the very instance
    `getComboIndex` looks up: the prefix instance, or the class of the
    property.
   */
  lemma ClassifyTextKindIsInstance(plugin: Plugin, namespaceFix: bool, behavior: Option<Behavior>, text: string)
    requires SubstringDefined(plugin, text)
    ensures var c := ClassifyText(plugin, namespaceFix, behavior, text);
      !IsReservedClass(c.valueType) ==> c.valueType == ComboInstance(plugin, c.instance, c.propertyName)
  {
  }

  /**
    The text classification only looks at the last token, so any text
    before the last space leaves it unchanged.
   */
  lemma ClassifyTextLastTokenOnly(plugin: Plugin, namespaceFix: bool, behavior: Option<Behavior>, a: string, b: string)
    ensures SubstringDefined(plugin, a + [' '] + b) <==> SubstringDefined(plugin, b)
    ensures SubstringDefined(plugin, b) ==>
      ClassifyText(plugin, namespaceFix, behavior, a + [' '] + b) == ClassifyText(plugin, namespaceFix, behavior, b)
  {
    LastTokenAfterSpace(a, b);
  }

  /**
    For a plain parameter both `Debug.Check`s of `getComboIndex` always
    hold: a kind that is not reserved was only returned after the registry
    resolved its instance.
   */
  lemma ClassifyTextIndexDefined(plugin: Plugin, namespaceFix: bool, behavior: Option<Behavior>, text: string)
    requires SubstringDefined(plugin, text)
    ensures var c := ClassifyText(plugin, namespaceFix, behavior, text);
      ComboIndexDefined(plugin, c.valueType, c.instance, c.propertyName)
  {
    var c := ClassifyText(plugin, namespaceFix, behavior, text);
    if !IsReservedClass(c.valueType) {
      var name := ComboInstance(plugin, c.instance, c.propertyName);
      if c.instance != "" {
        assert InstanceHasProperty(plugin, c.instance, c.propertyName, namespaceFix);
      } else {
        assert WorldStep(plugin, namespaceFix, c.propertyName);
      }
      assert InstanceProperties(plugin, name).Some?;
    }
  }

  /** Everything the classification of a parameter relies on. */
  predicate Classifiable(plugin: Plugin, valueText: Value -> string, param: Param, v: Value) {
    if param.isFromStruct then
      var c := ClassifyStruct(plugin, v);
      ComboIndexDefined(plugin, c.valueType, c.instance, c.propertyName)
    else
      v != Plain(Const(Null)) && SubstringDefined(plugin, valueText(v))
  }

  /** The classification `SetParameter` computes, struct or plain. */
  function Classify(plugin: Plugin, namespaceFix: bool, valueText: Value -> string,
                    param: Param, v: Value, behavior: Option<Behavior>): (c: Classification)
    requires Classifiable(plugin, valueText, param, v)
    ensures ComboIndexDefined(plugin, c.valueType, c.instance, c.propertyName)
  {
    if param.isFromStruct then ClassifyStruct(plugin, v)
    else
      ClassifyTextIndexDefined(plugin, namespaceFix, behavior, valueText(v));
      ClassifyText(plugin, namespaceFix, behavior, valueText(v))
  }

  // ---------------------------------------------------------------------
  // Sub-editor selection: `getEditorType`
  // ---------------------------------------------------------------------

  /** The three editor types the combo can host. */
  datatype EditorKind = AttributeEditor | ParEnumEditor | PropertyEnumEditor

  /**
    `getEditorType`: const is edited by the parameter attribute's own
    editor (none without a parameter or when the attribute names none),
    par by the par editor, every other kind by the property editor.
   */
  function EditorTypeFor(valueType: string, param: Option<Param>): (r: Option<EditorKind>)
    ensures r.None? <==> valueType == kConst && !(param.Some? && param.value.hasConstEditor)
    ensures r == Some(AttributeEditor) <==> valueType == kConst && param.Some? && param.value.hasConstEditor
    ensures r == Some(ParEnumEditor) <==> valueType == kPar
    ensures r == Some(PropertyEnumEditor) <==> valueType != kConst && valueType != kPar
  {
    if valueType == kConst then
      (if param.Some? && param.value.hasConstEditor then Some(AttributeEditor) else None)
    else if valueType == kPar then Some(ParEnumEditor)
    else Some(PropertyEnumEditor)
  }
}

=== FILE: combo_list.dfy ===
/**
  The visible item list of the binding combo box: what
  `typeComboBox_DropDown` does to it, stated as functions of the old list,
  the catalog and the combo's text, with the properties the narrowing in
  `SetParameter` relies on.
 */
module ComboList {
  import opened Binding

  /** The first position of `x` in `ts`. */
  function IndexOf(ts: seq<string>, x: string): (r: Option<nat>)
    ensures r.Some? ==> r.value < |ts| && ts[r.value] == x
    ensures r.Some? ==> forall j :: 0 <= j < r.value ==> ts[j] != x
    ensures r.None? <==> x !in ts
  {
    if ts == [] then None
    else if ts[0] == x then Some(0)
    else match IndexOf(ts[1..], x)
      case None => None
      case Some(i) => Some(i + 1)
  }

  /** Walks `ts` front to back, appending each entry not yet in the list. */
  function AppendMissing(items: seq<string>, ts: seq<string>): (r: seq<string>)
    ensures |items| <= |r| <= |items| + |ts|
    decreases |ts|
  {
    if ts == [] then items
    else AppendMissing(if ts[0] in items then items else items + [ts[0]], ts[1..])
  }

  /** Walks `ts` back to front, inserting at the head each entry not yet in the list. */
  function PrependMissing(items: seq<string>, ts: seq<string>): (r: seq<string>)
    ensures |items| <= |r| <= |items| + |ts|
    decreases |ts|
  {
    if ts == [] then items
    else
      var t := ts[|ts| - 1];
      PrependMissing(if t in items then items else [t] + items, ts[..|ts| - 1])
  }

  /** One step of `AppendMissing` at position `i` of `ts`. */
  lemma AppendMissingStep(items: seq<string>, ts: seq<string>, i: nat)
    requires i < |ts|
    ensures AppendMissing(items, ts[i..]) ==
            AppendMissing(if ts[i] in items then items else items + [ts[i]], ts[i + 1..])
  {
    assert ts[i..][0] == ts[i] && ts[i..][1..] == ts[i + 1..];
  }

  /** One step of `PrependMissing` at position `k` of `ts`, walking backwards. */
  lemma PrependMissingStep(items: seq<string>, ts: seq<string>, k: nat)
    requires k < |ts|
    ensures PrependMissing(items, ts[..k + 1]) ==
            PrependMissing(if ts[k] in items then items else [ts[k]] + items, ts[..k])
  {
    assert ts[..k + 1][k] == ts[k] && ts[..k + 1][..k] == ts[..k];
  }

  /**
    The item list after a drop-down: with empty text every missing catalog
    entry is appended; with text found in the catalog, the entries before
    it are put in front and those after it appended; otherwise the list is
    left alone.
   */
  function DroppedDown(items: seq<string>, types: seq<string>, text: string): (r: seq<string>)
    ensures |items| <= |r| <= |items| + |types|
    ensures text != "" && text !in types ==> r == items
  {
    if text == "" then AppendMissing(items, types)
    else match IndexOf(types, text)
      case None => items
      case Some(k) => AppendMissing(PrependMissing(items, types[..k]), types[k + 1..])
  }

  /** `inner` sits in `outer` as a contiguous block starting at `p`. */
  predicate OccursAt(inner: seq<string>, outer: seq<string>, p: nat) {
    p + |inner| <= |outer| && outer[p..p + |inner|] == inner
  }

  // ---------------------------------------------------------------------
  // What appending and prepending keep
  // ---------------------------------------------------------------------

  lemma DistinctAppend(items: seq<string>, t: string)
    requires Distinct(items) && t !in items
    ensures Distinct(items + [t])
  {
    var s := items + [t];
    forall i, j | 0 <= i < j < |s| ensures s[i] != s[j] {
      assert s[i] == items[i];
      if j < |items| { assert s[j] == items[j]; }
    }
  }

  lemma DistinctPrepend(t: string, items: seq<string>)
    requires Distinct(items) && t !in items
    ensures Distinct([t] + items)
  {
    var s := [t] + items;
    forall i, j | 0 <= i < j < |s| ensures s[i] != s[j] {
      assert s[j] == items[j - 1];
      if i > 0 { assert s[i] == items[i - 1]; }
    }
  }

  /** Appending keeps the old list as a prefix and adds only missing entries of `ts`. */
  lemma {:induction false} AppendMissingKeeps(items: seq<string>, ts: seq<string>)
    ensures var r := AppendMissing(items, ts);
      && |items| <= |r| && r[..|items|] == items
      && (forall k :: |items| <= k < |r| ==> r[k] in ts && r[k] !in items)
    decreases |ts|
  {
    if ts != [] {
      var next := if ts[0] in items then items else items + [ts[0]];
      AppendMissingKeeps(next, ts[1..]);
      var r := AppendMissing(items, ts);
      assert r == AppendMissing(next, ts[1..]);
      assert r[..|items|] == next[..|items|];
      forall k | |items| <= k < |r| ensures r[k] in ts && r[k] !in items {
        if k < |next| {
          assert r[k] == r[..|next|][k] == next[k] == ts[0];
        } else {
          assert r[k] in ts[1..];
        }
      }
    }
  }

  /** Appending leaves every entry of `ts` in the list, and no duplicate. */
  lemma {:induction false} AppendMissingCovers(items: seq<string>, ts: seq<string>)
    ensures var r := AppendMissing(items, ts);
      && (forall x :: x in items + ts ==> x in r)
      && (Distinct(items) ==> Distinct(r))
    decreases |ts|
  {
    if ts != [] {
      var next := if ts[0] in items then items else items + [ts[0]];
      AppendMissingCovers(next, ts[1..]);
      var r := AppendMissing(items, ts);
      assert r == AppendMissing(next, ts[1..]);
      assert ts == [ts[0]] + ts[1..];
      forall x | x in items + ts ensures x in r {
        if x in items || x == ts[0] {
          assert x in next;
        } else {
          assert x in ts[1..];
        }
        assert x in next + ts[1..];
      }
      if Distinct(items) && ts[0] !in items {
        DistinctAppend(items, ts[0]);
      }
    }
  }

  /** Prepending keeps the old list as a suffix. */
  lemma {:induction false} PrependMissingSuffix(items: seq<string>, ts: seq<string>)
    ensures var r := PrependMissing(items, ts);
      |items| <= |r| && r[|r| - |items|..] == items
    decreases |ts|
  {
    if ts != [] {
      var t := ts[|ts| - 1];
      var next := if t in items then items else [t] + items;
      var init := ts[..|ts| - 1];
      PrependMissingSuffix(next, init);
      var r := PrependMissing(items, ts);
      assert r == PrependMissing(next, init);
      if t !in items {
        assert next == [t] + items;
        assert r[|r| - |items|..] == r[|r| - |next|..][1..];
      } else {
        assert next == items;
      }
    }
  }

  /** Prepending adds only entries of `ts` that were missing. */
  lemma {:induction false} PrependMissingAdds(items: seq<string>, ts: seq<string>)
    ensures var r := PrependMissing(items, ts);
      && |items| <= |r|
      && (forall k :: 0 <= k < |r| - |items| ==> r[k] in ts && r[k] !in items)
    decreases |ts|
  {
    if ts != [] {
      var t := ts[|ts| - 1];
      var init := ts[..|ts| - 1];
      var next := if t in items then items else [t] + items;
      PrependMissingAdds(next, init);
      PrependMissingSuffix(next, init);
      var r := PrependMissing(items, ts);
      assert r == PrependMissing(next, init);
      forall k | 0 <= k < |r| - |items| ensures r[k] in ts && r[k] !in items {
        if k < |r| - |next| {
          assert r[k] in init;
          assert init <= ts;
        } else {
          assert r[k] == r[|r| - |next|..][0] == next[0] == t;
        }
      }
    }
  }

  /** Prepending leaves every entry of `ts` in the list, and no duplicate. */
  lemma {:induction false} PrependMissingCovers(items: seq<string>, ts: seq<string>)
    ensures var r := PrependMissing(items, ts);
      && (forall x :: x in items + ts ==> x in r)
      && (Distinct(items) ==> Distinct(r))
    decreases |ts|
  {
    if ts != [] {
      var t := ts[|ts| - 1];
      var init := ts[..|ts| - 1];
      var next := if t in items then items else [t] + items;
      PrependMissingCovers(next, init);
      var r := PrependMissing(items, ts);
      assert r == PrependMissing(next, init);
      assert ts == init + [t];
      forall x | x in items + ts ensures x in r {
        if x in items || x == t {
          assert x in next + init;
        } else {
          assert x in init;
          assert x in next + init;
        }
      }
      if Distinct(items) && t !in items {
        DistinctPrepend(t, items);
      }
    }
  }

  /**
    Prepending the entries of `before` and then appending those of `after`
    keeps the old list as one block, adds only entries of `before` or
    `after`, and never creates a duplicate.
   */
  lemma PrependThenAppend(items: seq<string>, before: seq<string>, after: seq<string>)
    ensures |items| <= |PrependMissing(items, before)|
    ensures var r := AppendMissing(PrependMissing(items, before), after);
      && OccursAt(items, r, |PrependMissing(items, before)| - |items|)
      && (forall x :: x in r ==> x in items || x in before || x in after)
      && (Distinct(items) ==> Distinct(r))
  {
    var mid := PrependMissing(items, before);
    var r := AppendMissing(mid, after);
    PrependMissingSuffix(items, before);
    PrependMissingAdds(items, before);
    PrependMissingCovers(items, before);
    AppendMissingKeeps(mid, after);
    AppendMissingCovers(mid, after);
    MidBlock(items, mid, r);
    forall x | x in r ensures x in items || x in before || x in after {
      var j :| 0 <= j < |r| && r[j] == x;
      if j < |mid| {
        InPrefix(r, mid, j);
        if j >= |mid| - |items| {
          assert mid[j] == mid[|mid| - |items|..][j - (|mid| - |items|)];
        }
      }
    }
  }

  lemma MidBlock(items: seq<string>, mid: seq<string>, r: seq<string>)
    requires |items| <= |mid| && mid[|mid| - |items|..] == items
    requires |mid| <= |r| && r[..|mid|] == mid
    ensures OccursAt(items, r, |mid| - |items|)
  {
    var p := |mid| - |items|;
    assert r[p..p + |items|] == r[..|mid|][p..];
  }

  lemma InPrefix(r: seq<string>, mid: seq<string>, j: nat)
    requires |mid| <= |r| && r[..|mid|] == mid && j < |mid|
    ensures r[j] == mid[j]
  {
    assert r[j] == r[..|mid|][j];
  }

  lemma OccursAtIncludes(items: seq<string>, r: seq<string>, p: nat)
    requires OccursAt(items, r, p)
    ensures forall x :: x in items ==> x in r
  {
    forall x | x in items ensures x in r {
      var i :| 0 <= i < |items| && items[i] == x;
      assert r[p + i] == r[p..p + |items|][i];
    }
  }

  /** The drop-down for text found at catalog position `k`. */
  lemma DroppedDownFound(items: seq<string>, types: seq<string>, k: nat)
    requires k < |types|
    ensures var r := AppendMissing(PrependMissing(items, types[..k]), types[k + 1..]);
      && (exists p :: OccursAt(items, r, p))
      && (forall x :: x in items ==> x in r)
      && (forall x :: x in r ==> x in items || x in types)
      && (Distinct(items) ==> Distinct(r))
  {
    var before, after := types[..k], types[k + 1..];
    var r := AppendMissing(PrependMissing(items, before), after);
    PrependThenAppend(items, before, after);
    OccursAtIncludes(items, r, |PrependMissing(items, before)| - |items|);
    SlicesWithin(types, k);
  }

  lemma SlicesWithin(types: seq<string>, k: nat)
    requires k < |types|
    ensures forall x :: x in types[..k] || x in types[k + 1..] ==> x in types
  {
    forall x | x in types[..k] || x in types[k + 1..] ensures x in types {
      if x in types[..k] {
        var i :| 0 <= i < k && types[..k][i] == x;
        assert types[i] == x;
      } else {
        var i :| 0 <= i < |types| - k - 1 && types[k + 1..][i] == x;
        assert types[k + 1 + i] == x;
      }
    }
  }

  /** The drop-down for empty text. */
  lemma DroppedDownEmpty(items: seq<string>, types: seq<string>)
    ensures var r := AppendMissing(items, types);
      && OccursAt(items, r, 0)
      && (forall x :: x in items ==> x in r)
      && (forall x :: x in r ==> x in items || x in types)
      && (Distinct(items) ==> Distinct(r))
      && (forall x :: x in types ==> x in r)
  {
    var r := AppendMissing(items, types);
    assert PrependMissing(items, []) == items;
    PrependThenAppend(items, [], types);
    AppendMissingCovers(items, types);
    OccursAtIncludes(items, r, 0);
  }

  /**
    A drop-down never removes an item and never adds a duplicate: the old
    list stays in one block, in its order, and each new item is a catalog
    entry that was missing. With empty text the result holds every catalog
    entry.
   */
  lemma DroppedDownShape(items: seq<string>, types: seq<string>, text: string)
    ensures var r := DroppedDown(items, types, text);
      && (exists p :: OccursAt(items, r, p))
      && (forall x :: x in items ==> x in r)
      && (forall x :: x in r ==> x in items || x in types)
      && (Distinct(items) ==> Distinct(r))
      && (text == "" ==> forall x :: x in types ==> x in r)
  {
    if text == "" {
      DroppedDownEmpty(items, types);
      assert OccursAt(items, DroppedDown(items, types, text), 0);
    } else {
      match IndexOf(types, text)
      case None =>
        assert DroppedDown(items, types, text) == items;
        assert OccursAt(items, items, 0);
      case Some(k) =>
        assert DroppedDown(items, types, text) == AppendMissing(PrependMissing(items, types[..k]), types[k + 1..]);
        DroppedDownFound(items, types, k);
    }
  }

  /**
    Where the selection is after a drop-down: inserting entries at the head
    moves a selected item down by the number inserted; appending moves
    nothing, and no selection (-1) stays none.
   */
  function SelectedAfter(items: seq<string>, types: seq<string>, text: string, selected: int): (r: int)
    ensures selected < 0 ==> r == selected
    ensures selected <= r
  {
    if selected < 0 || text == "" then selected
    else match IndexOf(types, text)
      case None => selected
      case Some(k) => selected + |PrependMissing(items, types[..k])| - |items|
  }

  /** A drop-down keeps the same item selected. */
  lemma DroppedDownKeepsSelection(items: seq<string>, types: seq<string>, text: string, selected: int)
    requires 0 <= selected < |items|
    ensures var r := DroppedDown(items, types, text);
      var s := SelectedAfter(items, types, text, selected);
      0 <= s < |r| && r[s] == items[selected]
  {
    var r := DroppedDown(items, types, text);
    if text == "" {
      AppendMissingKeeps(items, types);
      InPrefix(r, items, selected);
    } else {
      match IndexOf(types, text)
      case None =>
      case Some(k) =>
        var mid := PrependMissing(items, types[..k]);
        assert r == AppendMissing(mid, types[k + 1..]);
        PrependMissingSuffix(items, types[..k]);
        AppendMissingKeeps(mid, types[k + 1..]);
        var s := |mid| - |items| + selected;
        assert mid[s] == mid[|mid| - |items|..][selected];
        InPrefix(r, mid, s);
    }
  }

  /** Text that is not a catalog entry leaves the list as it was. */
  lemma DroppedDownUnknownText(items: seq<string>, types: seq<string>, text: string)
    requires text != "" && text !in types
    ensures DroppedDown(items, types, text) == items
  {
  }

  // ---------------------------------------------------------------------
  // Restoring the catalog after `SetParameter` narrowed the list
  // ---------------------------------------------------------------------

  lemma {:induction false} PrependRestores(types: seq<string>, k: nat, j: nat)
    requires Distinct(types) && j <= k < |types|
    ensures PrependMissing(types[j..k + 1], types[..j]) == types[..k + 1]
    decreases j
  {
    if j == 0 {
      assert types[0..k + 1] == types[..k + 1];
    } else {
      var ts := types[..j];
      assert ts[|ts| - 1] == types[j - 1];
      assert types[j - 1] !in types[j..k + 1];
      assert [types[j - 1]] + types[j..k + 1] == types[j - 1..k + 1];
      assert ts[..|ts| - 1] == types[..j - 1];
      PrependRestores(types, k, j - 1);
    }
  }

  lemma {:induction false} AppendRestores(types: seq<string>, j: nat)
    requires Distinct(types) && j <= |types|
    ensures AppendMissing(types[..j], types[j..]) == types
    decreases |types| - j
  {
    if j == |types| {
      assert types[..j] == types;
    } else {
      assert types[j..][0] == types[j];
      assert types[j] !in types[..j];
      assert types[..j] + [types[j]] == types[..j + 1];
      assert types[j..][1..] == types[j + 1..];
      AppendRestores(types, j + 1);
    }
  }

  /**
    After narrowing to the single entry `types[k]`, a drop-down with that
    entry as text gives back the whole catalog in catalog order.
   */
  lemma DroppedDownRestoresCatalog(types: seq<string>, k: nat)
    requires Distinct(types) && k < |types| && types[k] != ""
    ensures DroppedDown([types[k]], types, types[k]) == types
  {
    assert IndexOf(types, types[k]) == Some(k);
    assert types[k..k + 1] == [types[k]];
    PrependRestores(types, k, k);
    assert types[..k + 1][k + 1..] == [];
    AppendRestores(types, k + 1);
  }

  lemma {:induction false} AppendAfterNarrowBefore(types: seq<string>, k: nat, j: nat)
    requires Distinct(types) && j <= k < |types|
    ensures AppendMissing([types[k]] + types[..j], types[j..]) == [types[k]] + types[..k] + types[k + 1..]
    decreases k - j
  {
    var items := [types[k]] + types[..j];
    assert types[j..][1..] == types[j + 1..];
    if j == k {
      assert types[k] in items;
      assert [types[k]] + types[..k] + types[k + 1..k + 1] == items;
      AppendAfterNarrowAfter(types, k, k + 1);
    } else {
      assert types[j] !in items;
      assert items + [types[j]] == [types[k]] + types[..j + 1];
      AppendAfterNarrowBefore(types, k, j + 1);
    }
  }

  lemma AppendAfterNarrowAfter(types: seq<string>, k: nat, j: nat)
    requires Distinct(types) && k < j <= |types|
    ensures AppendMissing([types[k]] + types[..k] + types[k + 1..j], types[j..]) == [types[k]] + types[..k] + types[k + 1..]
  {
    var items := [types[k]] + types[..k] + types[k + 1..j];
    var goal := [types[k]] + types[..k] + types[k + 1..];
    assert types[k + 1..j] + types[j..] == types[k + 1..];
    assert items + types[j..] == goal;
    NarrowedDistinct(types, k);
    AppendFresh(items, types[j..]);
  }

  /** Appending entries none of which is already present, nor repeated, is plain concatenation. */
  lemma {:induction false} AppendFresh(items: seq<string>, ts: seq<string>)
    requires Distinct(items + ts)
    ensures AppendMissing(items, ts) == items + ts
    decreases |ts|
  {
    if ts != [] {
      var s := items + ts;
      assert s[|items|] == ts[0];
      forall i | 0 <= i < |items| ensures items[i] != ts[0] {
        assert s[i] == items[i];
      }
      assert items + [ts[0]] + ts[1..] == s;
      AppendFresh(items + [ts[0]], ts[1..]);
    }
  }

  /** Moving one entry of a duplicate-free catalog to the front keeps it duplicate-free. */
  lemma NarrowedDistinct(types: seq<string>, k: nat)
    requires Distinct(types) && k < |types|
    ensures Distinct([types[k]] + types[..k] + types[k + 1..])
  {
    var g := [types[k]] + types[..k] + types[k + 1..];
    forall i, j | 0 <= i < j < |g| ensures g[i] != g[j] {
      var ii := if i == 0 then k else if i <= k then i - 1 else i;
      var jj := if j == 0 then k else if j <= k then j - 1 else j;
      assert g[i] == types[ii] && g[j] == types[jj];
      assert ii != jj;
    }
  }


  /**
    After narrowing to the single entry `types[k]`, a drop-down with empty
    text shows every catalog entry once: `types[k]` first, then the others
    in catalog order.
   */
  lemma DroppedDownEmptyAfterNarrow(types: seq<string>, k: nat)
    requires Distinct(types) && k < |types|
    ensures DroppedDown([types[k]], types, "") == [types[k]] + types[..k] + types[k + 1..]
  {
    assert types[..0] == [] && types[0..] == types;
    assert [types[k]] + types[..0] == [types[k]];
    AppendAfterNarrowBefore(types, k, 0);
  }
}

=== FILE: editor.dfy ===
/**
  `DesignerParameterComboEnumEditor` as a class: the binding catalog it
  builds, the visible combo items it narrows and restores, and the
  parameter value and sub-editor scope it rewrites.
 */
module ComboEnumEditor {
  import opened Binding
  import opened Classifier
  import opened ComboList
  import opened Reconciler

  /**
    What installing a sub-editor changes: the parameter's value and the
    `GlobalType` and `FilterType` of the property sub-editor.
   */
  datatype EditorState = EditorState(value: Value, globalType: Option<string>, filterType: Option<TypeRef>)

  /**
    The state after `createEditor(kind)`: unchanged when the kind has no
    sub-editor; otherwise the value `setEditor` rewrites and, for Self or an
    instance, the scope it assigns.
   */
  function Installed(plugin: Plugin, p: Param, s: EditorState, kind: string): (t: EditorState)
    ensures EditorTypeFor(kind, Some(p)).None? ==> t == s
    ensures kind == kConst && p.hasConstEditor ==> !HoldsReference(p, t.value)
    ensures !p.isFromStruct && kind != kConst ==> t.value == s.value
    ensures kind == kConst || kind == kPar ==> t.globalType == s.globalType && t.filterType == s.filterType
    ensures kind != kConst && kind != kPar ==> t.globalType == (if kind == kSelf then None else Some(kind))
  {
    if EditorTypeFor(kind, Some(p)).None? then s
    else
      var r := Reconcile(plugin, p, s.value, kind);
      match r.scope
      case None => EditorState(r.value, s.globalType, s.filterType)
      case Some(scope) => EditorState(r.value, scope.globalType, scope.filterType)
  }

  /** Installing the sub-editor for the same kind twice: the second changes neither value nor instance scope. */
  lemma InstalledIdempotent(plugin: Plugin, p: Param, s: EditorState, kind: string)
    ensures var once := Installed(plugin, p, s, kind);
      var twice := Installed(plugin, p, once, kind);
      twice.value == once.value && twice.globalType == once.globalType
  {
    ReconcileIdempotent(plugin, p, s.value, kind);
  }

  /**
    The kind `SetParameter` selects in the combo is the catalog entry at the
    classified kind's slot: the kind itself for const, par and Self; for an
    instance kind, the instance's display name, which is the kind exactly
    when it equals the instance's name (plain parameter) or the variable's
    value class (struct member).
   */
  lemma SelectedKind(plugin: Plugin, namespaceFix: bool, valueText: Value -> string,
                     p: Param, v: Value, b: Option<Behavior>)
    requires Classifiable(plugin, valueText, p, v)
    ensures var c := Classify(plugin, namespaceFix, valueText, p, v, b);
      var index := ComboIndex(plugin, c.valueType, c.instance, c.propertyName);
      && (IsReservedClass(c.valueType) ==> Catalog(plugin)[index] == c.valueType)
      && (!p.isFromStruct && !IsReservedClass(c.valueType) ==>
            (Catalog(plugin)[index] == c.valueType <==>
             plugin.instanceNames[index - 3].displayName == plugin.instanceNames[index - 3].name))
      && (p.isFromStruct && v.Var? && !IsReservedClass(c.valueType) ==>
            (Catalog(plugin)[index] == c.valueType <==>
             plugin.instanceNames[index - 3].displayName == v.def.valueClass))
  {
    if !p.isFromStruct {
      ClassifyTextKindIsInstance(plugin, namespaceFix, b, valueText(v));
    }
  }

  /**
    When the entry `SetParameter` selects is the classified kind itself, the
    `createEditor` that the selection raises leaves the value and the
    instance scope as the first one left them.
   */
  lemma SelectionSettles(plugin: Plugin, namespaceFix: bool, valueText: Value -> string,
                         p: Param, v: Value, b: Option<Behavior>, s: EditorState)
    requires Classifiable(plugin, valueText, p, v)
    requires var c := Classify(plugin, namespaceFix, valueText, p, v, b);
      Catalog(plugin)[ComboIndex(plugin, c.valueType, c.instance, c.propertyName)] == c.valueType
    ensures var c := Classify(plugin, namespaceFix, valueText, p, v, b);
      var once := Installed(plugin, p, s.(value := v), c.valueType);
      var twice := Installed(plugin, p, once, Catalog(plugin)[ComboIndex(plugin, c.valueType, c.instance, c.propertyName)]);
      twice.value == once.value && twice.globalType == once.globalType
  {
    var c := Classify(plugin, namespaceFix, valueText, p, v, b);
    InstalledIdempotent(plugin, p, s.(value := v), c.valueType);
  }

  /**
    When an instance's display name differs from its name, the selection
    raised by `SetParameter` rebinds a struct member to the display name:
    registry instance "A" shown as "B", and a variable of class "A" holding
    a literal, end up as a variable of class "B" scoped to "B".
   */
  lemma SelectedDisplayNameRebinds()
    ensures var plugin := Plugin([InstanceName("A", "B", [])], _ => "", _ => "", _ => "A", _ => Null);
      var p := Param(true, TypeRef("int"), "x", false);
      var v := Var(VariableDef(Const(Literal("1", TypeRef("int"))), "A"));
      var valueText := (_: Value) => "";
      var c := Classify(plugin, false, valueText, p, v, None);
      var index := ComboIndex(plugin, c.valueType, c.instance, c.propertyName);
      var once := Installed(plugin, p, EditorState(v, None, None), c.valueType);
      var twice := Installed(plugin, p, once, Catalog(plugin)[index]);
      && c.valueType == "A" && index == 3 && Catalog(plugin)[index] == "B"
      && once.value == v
      && twice.value == Var(VariableDef(Const(Null), "B")) && twice.globalType == Some("B")
  {
    var plugin := Plugin([InstanceName("A", "B", [])], _ => "", _ => "", _ => "A", _ => Null);
    assert InstanceNameIndex(plugin.instanceNames, "A") == Some(0);
    assert Catalog(plugin)[3] == "B";
  }

  /**
    With pairwise different instance display names that avoid the reserved
    class names, the list `SetParameter` narrows to (the catalog entry at
    `k`, which is then the combo's text) is restored by a drop-down to the
    whole catalog; after the text is cleared, to every catalog entry once,
    the current one first.
   */
  lemma NarrowedDropDown(plugin: Plugin, k: nat)
    requires Distinct(DisplayNames(plugin.instanceNames))
    requires forall i :: 0 <= i < |plugin.instanceNames| ==> !IsReservedClass(plugin.instanceNames[i].displayName)
    requires k < |Catalog(plugin)|
    ensures var types := Catalog(plugin);
      && (types[k] != "" ==> DroppedDown([types[k]], types, types[k]) == types)
      && DroppedDown([types[k]], types, "") == [types[k]] + types[..k] + types[k + 1..]
  {
    var types := Catalog(plugin);
    CatalogDistinct(plugin);
    if types[k] != "" {
      DroppedDownRestoresCatalog(types, k);
    }
    DroppedDownEmptyAfterNarrow(types, k);
  }

  class ParameterComboEditor {
    /** The registry snapshot, the build's namespace-fix switch and `ToString`. */
    const plugin: Plugin
    const namespaceFix: bool
    const valueText: Value -> string

    /** `_types`: the binding catalog. */
    const types: seq<string>

    /** `typeComboBox.Items` and `typeComboBox.SelectedIndex`. */
    var items: seq<string>
    var selectedIndex: int

    /** `_param` (its fixed part), `_param.Value`, and the behaviour of `_object`. */
    var param: Option<Param>
    var value: Value
    var behavior: Option<Behavior>

    /** `GlobalType` and `FilterType` last assigned to the property sub-editor. */
    var globalType: Option<string>
    var filterType: Option<TypeRef>

    ghost predicate Valid() {
      types == Catalog(plugin)
    }

    /** The part of the editor a sub-editor installation changes. */
    function State(): EditorState
      reads this
    {
      EditorState(value, globalType, filterType)
    }

    /** Builds `_types`: const, par, Self, then every instance's display name. */
    constructor (plugin: Plugin, namespaceFix: bool, valueText: Value -> string)
      ensures Valid()
      ensures this.plugin == plugin && this.namespaceFix == namespaceFix && this.valueText == valueText
      ensures items == [] && param.None?
    {
      var ts := [kConst, kPar, kSelf];
      var names := plugin.instanceNames;
      var i := 0;
      while i < |names|
        invariant 0 <= i <= |names|
        invariant ts == [kConst, kPar, kSelf] + DisplayNames(names[..i])
      {
        ts := ts + [names[i].displayName];
        i := i + 1;
      }
      assert names[..i] == names;
      this.plugin := plugin;
      this.namespaceFix := namespaceFix;
      this.valueText := valueText;
      types := ts;
      items := [];
      selectedIndex := -1;
      param := None;
      value := Plain(Const(Null));
      behavior := None;
      globalType := None;
      filterType := None;
    }

    /**
      `setEditor`, value-rewriting part: rewrites the value for the kind
      `valueType` and, for a property kind, scopes the property sub-editor.
     */
    method SetEditor(valueType: string)
      requires param.Some?
      modifies this`value, this`globalType, this`filterType
      ensures var r := Reconcile(plugin, param.value, old(value), valueType);
        && value == r.value
        && (r.scope.None? ==> globalType == old(globalType) && filterType == old(filterType))
        && (r.scope.Some? ==> globalType == r.scope.value.globalType && filterType == r.scope.value.filterType)
    {
      var p := param.value;
      if valueType == kConst {
        if IsReferenceObject(value) {
          if !p.isFromStruct {
            value := Plain(Const(plugin.defaultValue(Some(p.ty))));
          } else if value.Var? {
            value := Plain(Const(plugin.defaultValue(ValueType(value.def))));
          } else if value.Par? {
            value := Plain(Const(plugin.defaultValue(ValueType(value.info.variable))));
          }
        }
      } else if valueType == kPar {
        if p.isFromStruct {
          if !value.Par? && !value.Var? {
            value := Par(ParInfo(p.displayName, p.ty.fullName, VariableDef(value.datum, kPar)));
          } else if value.Var? {
            var v := value.def;
            if v.valueClass != valueType {
              var t1 := ValueType(v).GetOr(p.ty);
              value := Var(VariableDef(Const(plugin.defaultValue(Some(t1))), valueType));
            }
          }
        }
      } else {
        if !p.isFromStruct {
          if valueType == kSelf {
            globalType := None;
            filterType := Some(p.ty);
          } else {
            globalType := Some(valueType);
            filterType := Some(p.ty);
          }
        } else {
          if valueType == kSelf {
            globalType := None;
          } else {
            globalType := Some(valueType);
          }
          if value.Var? {
            var v := value.def;
            if v.valueClass != valueType {
              var t1 := ValueType(v).GetOr(p.ty);
              value := Var(VariableDef(Const(plugin.defaultValue(Some(t1))), valueType));
            }
            filterType := Some(ValueType(v).GetOr(p.ty));
          } else if value.Par? {
            var v := value.info;
            if v.variable.valueClass != valueType {
              value := Var(VariableDef(Const(plugin.defaultValue(ValueType(v.variable))), valueType));
            }
            filterType := ValueType(v.variable);
          } else {
            value := Var(VariableDef(value.datum, valueType));
            filterType := Some(p.ty);
          }
        }
      }
    }

    /**
      `createEditor`: picks the sub-editor type for `valueType` and, when
      there is one, lets `setEditor` rewrite the value for it.
     */
    method CreateEditor(valueType: string) returns (editor: Option<EditorKind>)
      requires param.Some? || valueType == kConst
      modifies this`value, this`globalType, this`filterType
      ensures editor == EditorTypeFor(valueType, param)
      ensures editor.None? ==> State() == old(State())
      ensures param.Some? ==> State() == Installed(plugin, param.value, old(State()), valueType)
    {
      editor := EditorTypeFor(valueType, param);
      if editor.Some? {
        SetEditor(valueType);
      }
    }

    /**
      The classification part of `SetParameter`: a struct member by the
      shape of its value, a plain parameter by the last token of its text;
      then the catalog slot of the kind found.
     */
    method FindKind(p: Param, v: Value, b: Option<Behavior>) returns (valueType: string, typeIndex: int)
      requires Valid()
      requires Classifiable(plugin, valueText, p, v)
      ensures var c := Classify(plugin, namespaceFix, valueText, p, v, b);
        && valueType == c.valueType
        && typeIndex == ComboIndex(plugin, c.valueType, c.instance, c.propertyName)
      ensures 0 <= typeIndex < |types|
    {
      if p.isFromStruct {
        var instance := "";
        valueType := kConst;
        if v.Par? {
          valueType := kPar;
        } else if v.Var? {
          valueType := v.def.valueClass;
          instance := valueType;
          if instance != kSelf {
            instance := plugin.getInstanceNameFromClassName(instance);
          }
        }
        assert Classification(valueType, instance, "") == Classify(plugin, namespaceFix, valueText, p, v, b);
        typeIndex := ComboIndex(plugin, valueType, instance, "");
      } else {
        var propertyName := LastToken(valueText(v));
        var instance := plugin.getInstanceName(propertyName);
        if instance != "" {
          propertyName := propertyName[|instance| + 1..];
          valueType := InstanceValueType(plugin, namespaceFix, instance, propertyName);
        } else {
          valueType := LocalValueType(plugin, namespaceFix, b, propertyName);
        }
        assert Classification(valueType, instance, propertyName) == Classify(plugin, namespaceFix, valueText, p, v, b);
        typeIndex := ComboIndex(plugin, valueType, instance, propertyName);
      }
    }

    /**
      `SetParameter`: classifies the parameter's value, lets the sub-editor
      for that kind rewrite it, and narrows the visible items to the
      catalog entry of that kind.
     */
    method SetParameter(p: Param, v: Value, b: Option<Behavior>)
      requires Valid()
      requires Classifiable(plugin, valueText, p, v)
      modifies this`param, this`value, this`behavior, this`items, this`selectedIndex, this`globalType, this`filterType
      ensures Valid()
      ensures param == Some(p) && behavior == b
      ensures var c := Classify(plugin, namespaceFix, valueText, p, v, b);
        var index := ComboIndex(plugin, c.valueType, c.instance, c.propertyName);
        var first := Installed(plugin, p, EditorState(v, old(globalType), old(filterType)), c.valueType);
        && items == [types[index]]
        && selectedIndex == 0
        && State() == Installed(plugin, p, first, types[index])
    {
      param := Some(p);
      value := v;
      behavior := b;
      var valueType, typeIndex := FindKind(p, v, b);
      ApplyKind(valueType, typeIndex);
    }

    /**
      The second half of `SetParameter`: installs the sub-editor for
      `valueType` (which may rewrite the value) and keeps only the catalog
      entry at `typeIndex` in the visible items; selecting it raises
      `SelectedIndexChanged`, which installs the sub-editor again for that
      entry.
     */
    method ApplyKind(valueType: string, typeIndex: int)
      requires param.Some? && typeIndex < |types|
      modifies this`value, this`items, this`selectedIndex, this`globalType, this`filterType
      ensures var first := Installed(plugin, param.value, old(State()), valueType);
        && (typeIndex <= -1 ==> State() == first && items == old(items) && selectedIndex == old(selectedIndex))
        && (typeIndex > -1 ==>
              && items == [types[typeIndex]] && selectedIndex == 0
              && State() == Installed(plugin, param.value, first, types[typeIndex]))
    {
      var editor := CreateEditor(valueType);
      if typeIndex > -1 {
        // Keep only one type.
        items := [types[typeIndex]];
        selectedIndex := 0;
        SelectedIndexChanged();
      }
    }

    /**
      `typeComboBox_SelectedIndexChanged`: with an item selected, installs
      the sub-editor for the selected kind.
     */
    method SelectedIndexChanged()
      requires param.Some? || !(0 <= selectedIndex < |items|) || items[selectedIndex] == kConst
      modifies this`value, this`globalType, this`filterType
      ensures !(0 <= selectedIndex < |items|) || param.None? ==> State() == old(State())
      ensures 0 <= selectedIndex < |items| && param.Some? ==>
        State() == Installed(plugin, param.value, old(State()), items[selectedIndex])
    {
      if 0 <= selectedIndex < |items| {
        var editor := CreateEditor(items[selectedIndex]);
      }
    }

    /** Appends, in catalog order, each entry of `types[from..]` not shown yet. */
    method AppendMissingFrom(from: nat)
      requires from <= |types|
      modifies this`items
      ensures items == AppendMissing(old(items), types[from..])
    {
      ghost var target := AppendMissing(items, types[from..]);
      var k := from;
      while k < |types|
        invariant from <= k <= |types|
        invariant AppendMissing(items, types[k..]) == target
      {
        AppendMissingStep(items, types, k);
        if types[k] !in items {
          items := items + [types[k]];
        }
        k := k + 1;
      }
      assert types[k..] == [];
    }

    /**
      Inserts at the head, nearest first, each entry of `types[..upto]` not
      shown yet; each insertion moves a selected item down by one.
     */
    method PrependMissingBefore(upto: nat)
      requires upto <= |types|
      modifies this`items, this`selectedIndex
      ensures items == PrependMissing(old(items), types[..upto])
      ensures selectedIndex == if old(selectedIndex) < 0 then old(selectedIndex)
                               else old(selectedIndex) + |items| - |old(items)|
    {
      ghost var target := PrependMissing(items, types[..upto]);
      ghost var before, selected := items, selectedIndex;
      var k := upto - 1;
      while k >= 0
        invariant -1 <= k < upto
        invariant PrependMissing(items, types[..k + 1]) == target
        invariant |before| <= |items|
        invariant selectedIndex == if selected < 0 then selected else selected + |items| - |before|
      {
        PrependMissingStep(items, types, k);
        if types[k] !in items {
          items := [types[k]] + items;
          if selectedIndex >= 0 {
            selectedIndex := selectedIndex + 1;
          }
        }
        k := k - 1;
      }
      assert types[..0] == [];
    }

    /** The catalog position of `text`, or -1. */
    method FindType(text: string) returns (index: int)
      ensures IndexOf(types, text).None? ==> index == -1
      ensures IndexOf(types, text).Some? ==> index == IndexOf(types, text).value
    {
      index := -1;
      var i := 0;
      while i < |types|
        invariant 0 <= i <= |types|
        invariant forall j :: 0 <= j < i ==> types[j] != text
      {
        if text == types[i] {
          index := i;
          return;
        }
        i := i + 1;
      }
    }

    /**
      `typeComboBox_DropDown`: with empty text, appends every catalog entry
      not shown yet; with text naming a catalog entry, inserts the entries
      before it at the front (nearest first) and appends those after it;
      entries already shown are skipped.
     */
    method DropDown(text: string)
      modifies this`items, this`selectedIndex
      ensures items == DroppedDown(old(items), types, text)
      ensures selectedIndex == SelectedAfter(old(items), types, text, old(selectedIndex))
    {
      if text == "" {
        AppendMissingFrom(0);
        assert types[0..] == types;
      } else {
        var index := FindType(text);
        if index > -1 {
          PrependMissingBefore(index);
          AppendMissingFrom(index + 1);
        }
      }
    }
  }
}

=== FILE: reconciler.dfy ===
/**
  The value reconciler of the parameter editor: how `setEditor` rewrites a
  parameter's value when its binding kind is switched, and which scope
  (`GlobalType`) and type filter (`FilterType`) it hands to the property
  sub-editor.
 */
module Reconciler {
  import opened Binding
  import opened Classifier

  /** The `GlobalType` and `FilterType` assigned to the property sub-editor. */
  datatype EditorScope = EditorScope(globalType: Option<string>, filterType: Option<TypeRef>)

  /** The rewritten value, and the scope given to the property sub-editor, if any. */
  datatype Reconciliation = Reconciliation(value: Value, scope: Option<EditorScope>)

  /**
    A value switching to const must drop: for a struct member a
    `VariableDef` or `ParInfo`, for a plain parameter also a `PropertyDef`.
   */
  predicate HoldsReference(param: Param, v: Value) {
    if param.isFromStruct then v.Var? || v.Par? else IsReferenceObject(v)
  }

  /** The datum a value carries, directly or inside its variable. */
  function InnerDatum(v: Value): Datum {
    match v
    case Plain(d) => d
    case Var(d) => d.datum
    case Par(p) => p.variable.datum
  }

  /**
    The one case in which switching a struct member does not yield the
    requested kind: a `ParInfo` whose variable already carries the
    requested (property) class is left as it is.
   */
  predicate KeptParInfo(v: Value, valueType: string) {
    v.Par? && v.info.variable.valueClass == valueType && valueType != kConst && valueType != kPar
  }

  /**
    `setEditor`'s rewrite of the value for the kind `valueType`, and the
    scope it assigns to the property sub-editor (none for const and par,
    whose editors get none).
   */
  function Reconcile(plugin: Plugin, param: Param, value: Value, valueType: string): (r: Reconciliation)
    ensures valueType == kConst ==> !HoldsReference(param, r.value)
    ensures valueType == kConst && !HoldsReference(param, value) ==> r.value == value
    ensures !param.isFromStruct && valueType != kConst ==> r.value == value
    ensures param.isFromStruct && !KeptParInfo(value, valueType) ==> ClassifyStruct(plugin, r.value).valueType == valueType
    ensures param.isFromStruct && value.Plain? && valueType != kConst ==> InnerDatum(r.value) == value.datum
    ensures r.scope.Some? <==> valueType != kConst && valueType != kPar
    ensures r.scope.Some? ==> r.scope.value.globalType == (if valueType == kSelf then None else Some(valueType))
  {
    if valueType == kConst then
      if IsReferenceObject(value) then
        if !param.isFromStruct then
          Reconciliation(Plain(Const(plugin.defaultValue(Some(param.ty)))), None)
        else
          match value
          case Var(v) => Reconciliation(Plain(Const(plugin.defaultValue(ValueType(v)))), None)
          case Par(p) => Reconciliation(Plain(Const(plugin.defaultValue(ValueType(p.variable)))), None)
          case Plain(_) => Reconciliation(value, None)
      else Reconciliation(value, None)
    else if valueType == kPar then
      if param.isFromStruct then
        match value
        case Plain(d) =>
          Reconciliation(Par(ParInfo(param.displayName, param.ty.fullName, VariableDef(d, kPar))), None)
        case Var(v) =>
          if v.valueClass != valueType then
            var t1 := ValueType(v).GetOr(param.ty);
            Reconciliation(Var(VariableDef(Const(plugin.defaultValue(Some(t1))), valueType)), None)
          else Reconciliation(value, None)
        case Par(_) => Reconciliation(value, None)
      else Reconciliation(value, None)
    else
      var globalType := if valueType == kSelf then None else Some(valueType);
      if !param.isFromStruct then
        Reconciliation(value, Some(EditorScope(globalType, Some(param.ty))))
      else
        match value
        case Var(v) =>
          var t1 := ValueType(v).GetOr(param.ty);
          var value' := if v.valueClass != valueType
                        then Var(VariableDef(Const(plugin.defaultValue(Some(t1))), valueType))
                        else value;
          Reconciliation(value', Some(EditorScope(globalType, Some(t1))))
        case Par(p) =>
          var value' := if p.variable.valueClass != valueType
                        then Var(VariableDef(Const(plugin.defaultValue(ValueType(p.variable))), valueType))
                        else value;
          Reconciliation(value', Some(EditorScope(globalType, ValueType(p.variable))))
        case Plain(d) =>
          Reconciliation(Var(VariableDef(d, valueType)), Some(EditorScope(globalType, Some(param.ty))))
  }

  // ---------------------------------------------------------------------
  // Each target kind
  // ---------------------------------------------------------------------

  /**
    Switching to const replaces only references: a plain parameter's by the
    default of its declared type, a struct member's `VariableDef` by the
    default of its value type, a struct member's `ParInfo` by the default of
    its variable's value type. Literals, and a struct member's
    `PropertyDef`, stay.
   */
  lemma ReconcileToConst(plugin: Plugin, param: Param, value: Value)
    ensures var r := Reconcile(plugin, param, value, kConst);
      && r.scope.None?
      && (!HoldsReference(param, value) ==> r.value == value)
      && (!param.isFromStruct && IsReferenceObject(value) ==>
            r.value == Plain(Const(plugin.defaultValue(Some(param.ty)))))
      && (param.isFromStruct && value.Var? ==>
            r.value == Plain(Const(plugin.defaultValue(ValueType(value.def)))))
      && (param.isFromStruct && value.Par? ==>
            r.value == Plain(Const(plugin.defaultValue(ValueType(value.info.variable)))))
  {
  }

  /**
    Switching a struct member to par wraps a literal (or property) into a
    `ParInfo` named after the parameter, typed by its declared type's full
    name, holding the old datum in a par variable; a `ParInfo` or a par
    `VariableDef` stays; a `VariableDef` of another class becomes a par
    variable holding the default of its value type (or of the declared
    type when it has none). A plain parameter's value never changes.
   */
  lemma ReconcileToPar(plugin: Plugin, param: Param, value: Value)
    ensures var r := Reconcile(plugin, param, value, kPar);
      && r.scope.None?
      && (!param.isFromStruct ==> r.value == value)
      && (param.isFromStruct && value.Plain? ==>
            r.value == Par(ParInfo(param.displayName, param.ty.fullName, VariableDef(value.datum, kPar))))
      && (param.isFromStruct && (value.Par? || (value.Var? && value.def.valueClass == kPar)) ==> r.value == value)
      && (param.isFromStruct && value.Var? && value.def.valueClass != kPar ==>
            r.value == Var(VariableDef(Const(plugin.defaultValue(Some(ValueType(value.def).GetOr(param.ty)))), kPar)))
  {
  }

  /**
    Switching to Self or to an instance scopes the property editor to no
    instance (Self) or to that instance. A plain parameter keeps its value
    and is filtered by its declared type. A struct member's `VariableDef`
    of the same class stays, one of another class is rebuilt from the
    default of its value type (or the declared type); a `ParInfo` of
    another class becomes a variable holding the default of its variable's
    value type; a literal is wrapped, unchanged, into a variable of the
    target class and filtered by the declared type.
   */
  lemma ReconcileToProperty(plugin: Plugin, param: Param, value: Value, target: string)
    requires target != kConst && target != kPar
    ensures var r := Reconcile(plugin, param, value, target);
      && r.scope.Some?
      && r.scope.value.globalType == (if target == kSelf then None else Some(target))
      && (!param.isFromStruct ==> r.value == value && r.scope.value.filterType == Some(param.ty))
      && (param.isFromStruct && value.Var? && value.def.valueClass == target ==> r.value == value)
      && (param.isFromStruct && value.Var? && value.def.valueClass != target ==>
            r.value == Var(VariableDef(Const(plugin.defaultValue(Some(ValueType(value.def).GetOr(param.ty)))), target)))
      && (param.isFromStruct && value.Var? ==> r.scope.value.filterType == Some(ValueType(value.def).GetOr(param.ty)))
      && (param.isFromStruct && value.Par? && value.info.variable.valueClass != target ==>
            r.value == Var(VariableDef(Const(plugin.defaultValue(ValueType(value.info.variable))), target)))
      && (param.isFromStruct && value.Par? ==> r.scope.value.filterType == ValueType(value.info.variable))
      && (param.isFromStruct && value.Plain? ==>
            r.value == Var(VariableDef(value.datum, target)) && r.scope.value.filterType == Some(param.ty))
  {
  }

  // ---------------------------------------------------------------------
  // Properties across calls
  // ---------------------------------------------------------------------

  /**
    Switching to a kind a second time changes nothing more: the value, and
    the scope's instance, are those of the first switch.
   */
  lemma ReconcileIdempotent(plugin: Plugin, param: Param, value: Value, valueType: string)
    ensures var once := Reconcile(plugin, param, value, valueType);
      var twice := Reconcile(plugin, param, once.value, valueType);
      && twice.value == once.value
      && (twice.scope.Some? <==> once.scope.Some?)
      && (twice.scope.Some? ==> twice.scope.value.globalType == once.scope.value.globalType)
  {
  }

  /**
    Running `setEditor` for the kind a value is classified as leaves the
    value as it is, except for a const-classified value holding a
    reference, which is replaced by a default: a struct member's
    `VariableDef` of class const, or a plain parameter's reference whose
    text classifies as const.
   */
  lemma ReconcileKeepsClassified(plugin: Plugin, namespaceFix: bool, valueText: Value -> string,
                                  param: Param, value: Value, behavior: Option<Behavior>)
    requires Classifiable(plugin, valueText, param, value)
    ensures var c := Classify(plugin, namespaceFix, valueText, param, value, behavior);
      var r := Reconcile(plugin, param, value, c.valueType);
      && (c.valueType != kConst ==> r.value == value)
      && (c.valueType == kConst ==> (r.value == value <==> !HoldsReference(param, value)))
  {
    var c := Classify(plugin, namespaceFix, valueText, param, value, behavior);
  }

  /**
    Switching a struct member to another kind and back to its own kind
    makes it classify as its own kind again (the value itself may have been
    replaced by a default on the way).
   */
  lemma {:induction false} ReconcileKindRoundTrip(plugin: Plugin, param: Param, value: Value, other: string)
    requires param.isFromStruct
    ensures var there := Reconcile(plugin, param, value, other).value;
      var kind := ClassifyStruct(plugin, value).valueType;
      var back := Reconcile(plugin, param, there, kind).value;
      ClassifyStruct(plugin, back).valueType == kind
  {
    var there := Reconcile(plugin, param, value, other).value;
    assert !KeptParInfo(there, ClassifyStruct(plugin, value).valueType);
  }

  /**
    The round trip does not hold for a plain parameter: switching it to
    const replaces a reference by the default of its declared type, and
    switching to any kind afterwards leaves that default alone, so the
    binding is lost.
   */
  lemma ReconcilePlainLosesBinding(plugin: Plugin, param: Param, value: Value, other: string)
    requires !param.isFromStruct && IsReferenceObject(value)
    ensures var there := Reconcile(plugin, param, value, kConst).value;
      var back := Reconcile(plugin, param, there, other).value;
      && back == Plain(Const(plugin.defaultValue(Some(param.ty))))
      && back != value && !IsReferenceObject(back)
  {
  }

  /**
    Concrete case: a plain parameter of type `int` bound to the agent's
    property "hp" (text "hp") classifies as Self; after switching to const
    and back to Self it holds the default `0`, whose text "0" names no
    instance, par or property and classifies as const.
   */
  lemma PlainRoundTripBecomesConst(plugin: Plugin, valueText: Value -> string, param: Param, behavior: Option<Behavior>)
    requires param == Param(false, TypeRef("int"), "x", false)
    requires behavior == Some(Behavior([], Some(["hp"])))
    requires plugin.getInstanceName("hp") == "" && plugin.getInstanceName("0") == ""
    requires plugin.getClassName("0") == ""
    requires plugin.defaultValue(Some(TypeRef("int"))) == Literal("0", TypeRef("int"))
    requires valueText(Var(VariableDef(Property(PropertyDef("hp", TypeRef("int"))), kSelf))) == "hp"
    requires valueText(Plain(Const(Literal("0", TypeRef("int"))))) == "0"
    ensures var value := Var(VariableDef(Property(PropertyDef("hp", TypeRef("int"))), kSelf));
      var there := Reconcile(plugin, param, value, kConst).value;
      var back := Reconcile(plugin, param, there, kSelf).value;
      && Classifiable(plugin, valueText, param, value)
      && Classify(plugin, false, valueText, param, value, behavior).valueType == kSelf
      && back == Plain(Const(Literal("0", TypeRef("int"))))
      && Classifiable(plugin, valueText, param, back)
      && Classify(plugin, false, valueText, param, back, behavior).valueType == kConst
  {
    assert LastToken("h") == "h" by { assert "h"[..0] == []; }
    assert LastToken("hp") == "hp" by { assert "hp"[..1] == "h"; }
    assert LastToken("0") == "0" by { assert "0"[..0] == []; }
    assert FindMatch(["hp"], "hp", false) == Some(0);
    assert FindMatch(["hp"], "0", false) == None by { assert "hp" != "0"; }
  }

  /**
    The property editor type is chosen exactly for the kinds that receive
    a scope, so the cast to the property editor in `setEditor` never fails.
   */
  lemma ScopeOnlyForPropertyEditor(plugin: Plugin, param: Param, value: Value, valueType: string)
    ensures Reconcile(plugin, param, value, valueType).scope.Some? <==>
            EditorTypeFor(valueType, Some(param)) == Some(PropertyEnumEditor)
  {
  }
}
